=== FILE: README.md ===
# Booklet page ordering

A Dafny model of the page-ordering core of `PdfProcessor` in `main.py`, the
engine of a desktop tool that turns PDF files into saddle-stitched booklets.
A run of `create_booklet` takes a page-range field, a reading direction
(LTR or RTL), a "split into sub-booklets" switch with a sheets-per-booklet
count, and an output path. It then:

1. parses the page-range field into sorted 0-based page indices. A blank
   field means every page. Malformed tokens abort the run. An empty
   selection stops it with "Invalid page range specified."
2. cuts the selection into chunks of `4 * sheets_per_booklet` pages;
3. pads each chunk with blank pages (index `-1`) to a multiple of four;
4. drains the padded chunk from both ends, four entries per physical sheet,
   in the order of the reading direction;
5. pairs the reordered entries two by two into output sides (left half,
   right half). Blanks draw nothing.
6. names each booklet's file: the output path itself, or
   `{base}_part_{i+1}{ext}` when there are several.

The modules follow those steps:

- `Outcomes`: the error values and `Result`/`Option`.
- `Seqs`: concatenation of a sequence of sequences.
- `Text`: `str.strip`, the `re.split(r'[,\s]+')` tokeniser, `str.split`.
- `Integers`: `int()` and `str()` on decimal strings.
- `PageRange`: steps 1 and the empty-selection check.
- `Chunking`: step 2.
- `Imposition`: steps 3 and 4, with the folding argument.
- `Sheets`: step 5.
- `OutputNames`: step 6, with `os.path.splitext` on POSIX paths.
- `Pipeline`: the whole run, from options to the list of booklets.

The proved properties are:

- A blank field selects every page in order.
- A parsed selection is strictly ascending and in range, and it holds a page
  exactly when some token names it.
- Malformed tokens abort the run, and the first one is the error reported.
- A reversed span is accepted but selects nothing.
- Chunking is an in-order partition with full chunks except the last.
- The padding count is the only number below four that reaches a multiple
  of four.
- The reorder is a permutation of the padded chunk. It has a closed form
  per sheet. The RTL order is the LTR order with the halves of every face
  swapped. Every reading page lands where folding the stacked sheets needs
  it.
- Pairing loses nothing.
- Booklet names are distinct.
- Across the whole run, every selected page is drawn exactly once and
  nothing else is drawn.

Two behaviours of the code are easy to mistake:

- The LTR order of eight pages is `[7,0,1,6,5,2,3,4]`. See
  `Imposition.EightPageOrders`.
- A reversed span such as "5-3" is accepted and selects nothing, so that
  field alone ends in the empty-selection error. See
  `PageRange.ReversedRangeIsEmptySelection`.

## Model

| member | source | states |
|---|---|---|
| Text.Strip | main.py:126 | the stripped field is empty exactly when the field is all white space; otherwise it starts and ends with a non-space, and it is a slice of the field with only white space around it |
| Text.TokensStrip | main.py:126-131 | stripping the field before splitting it changes no token |
| Text.Tokens | main.py:131-133 | every non-empty part of the split is a non-empty run of characters that are neither commas nor white space |
| Text.TokensOfLayout | main.py:131-133 | splitting words laid out with an optional leading run of separators, a non-empty run between neighbours and an optional trailing run gives back exactly those words, so the split never merges or cuts a token |
| Text.FlattenTokens | main.py:131-133 | the tokens, concatenated, are the field with its separators removed, so nothing else is lost |
| Text.SplitOn | main.py:135 | `part.split('-')` has one more piece than there are dashes, and no piece contains a dash |
| Text.JoinSplitOn | main.py:135 | joining the pieces of `split(c)` with c gives back the string |
| Integers.ParseInt | main.py:140 | a string int() accepts contains a digit, and a negative result needs a leading minus sign |
| Integers.ParseShowInt | main.py:140 | int(str(n)) == n for every integer n (Python itself raises on either side beyond its digit limit; see "## Left out") |
| Integers.DigitsValueShowNat | main.py:140 | reading back the decimal digits of n gives n |
| Integers.ShowNat | main.py:76 | str(i+1) is a non-empty run of decimal digits; ParseShowInt and DigitsValueShowNat read it back as the number, and ShowNatInjective keeps different numbers apart |
| Integers.ShowNatInjective | main.py:76 | two different numbers never print the same |
| Integers.ParseIntRejects | main.py:140 | int() rejects "", "+", "a", "1__0" and "_1" |
| Integers.ParseIntAccepts | main.py:140 | int() accepts "+7", "007" and "1_0" |
| PageRange.ParseToken | main.py:134-140 | a token fails only with its own text as the error; a successful token is a span exactly when it contains a dash |
| PageRange.MalformedTokens | main.py:134-140 | "a", "1-2-3", "-3" and "3-" each abort the run with a malformed-range error |
| PageRange.ParseTokenShow | main.py:134-140 | the tokens str(a) and str(a)-str(b) read back as page a and span a..b, for all a and b |
| PageRange.ReversedSpanSelectsNothing | main.py:136-138 | a span whose first page is after its last adds no page |
| PageRange.Pages | main.py:136-142 | a token adds exactly the pages it names that exist, as 0-based indices |
| PageRange.RangePages | main.py:136-138 | the loop over first..last adds exactly the indices i-1 with first <= i <= last and 1 <= i <= total_pages; a reversed span adds nothing |
| PageRange.CollectStep | main.py:132-142 | one loop step: the pages of the first token joined with those of the rest are exactly the pages some token names |
| PageRange.Collect | main.py:130-142 | the loop succeeds exactly when every token is well formed; it then holds exactly the requested existing pages, and otherwise fails with the first malformed token's error |
| PageRange.Ascending | main.py:143 | the listing of a set within bounds is strictly ascending, and it holds exactly the set's members within those bounds |
| PageRange.SortedIndices | main.py:143 | `sorted(list(s))` is strictly ascending, in range, and has the same members as s |
| PageRange.StrictlyAscendingUnique | main.py:143 | two strictly ascending lists with the same members are equal, so the sorted list is the only listing of the set |
| PageRange.AllPages | main.py:127-128 | the blank-field result lists every index below total_pages, at its own position |
| PageRange.SelectTokens | main.py:130-143 | over the tokens of a non-blank field: success exactly when every token is well formed; the result is strictly ascending, in range, and holds a page exactly when some token names it; a failure carries the first malformed token's error |
| PageRange.ParsePageRange | main.py:124-143 | a blank field selects every page in order; otherwise the same promises as SelectTokens, stated on the tokens of the field |
| PageRange.ParseFilled | main.py:126-143 | the non-blank case, stated on the tokens of the unstripped field |
| PageRange.SelectPages | main.py:52-54 | the run proceeds with the parsed selection when it is non-empty; an empty one is exactly the EmptySelection error; parse errors pass through unchanged, so every error is EmptySelection or a malformed range; a blank field fails only for a document of no pages |
| PageRange.SelectionSize | main.py:52-54 | a selection that lets the run proceed holds between 1 and total_pages pages |
| PageRange.ReversedRangeIsEmptySelection | main.py:134-138 | for all first > last, the field "first-last" parses to the empty selection, so the run stops with EmptySelection |
| PageRange.ReversedRangeExample | main.py:52-54 | the field "5-3" stops the run with EmptySelection, for any page count |
| PageRange.ExampleTokens | main.py:125-133 | the docstring's example "1-5, 8, 10-12" is not blank and splits into the tokens "1-5", "8" and "10-12" |
| Chunking.Chunks | main.py:153-156 | the chunks concatenate back to the selection; each holds between 1 and size pages, and all but the last hold exactly size |
| Chunking.ChunkCount | main.py:154 | there are ceil(n / size) chunks |
| Chunking.ChunkIsSlice | main.py:154-155 | chunk k is `page_indices[k*size : k*size + size]` |
| Chunking.SplitIntoBooklets | main.py:145-156 | without splitting, one chunk holds the whole selection; with a positive sheet count, it is an in-order partition into chunks of 4 * sheets pages, the last possibly shorter; a zero count is an error; a negative count gives no chunk |
| Chunking.NegativeSheetCountDropsEveryPage | main.py:150-156 | as written, a negative sheet count loses every selected page |
| Chunking.SplitIntoBookletsChecked | main.py:145-156 | the splitter with the sheet count checked fails exactly when splitting is on with fewer than one sheet; every success is an in-order partition of non-empty chunks of at most 4 * sheets pages |
| Chunking.HundredPagesTenSheets | main.py:150-156 | 100 pages at 10 sheets make three booklets of 40, 40 and 20 pages |
| Imposition.PaddingCount | main.py:164 | the padding is below 4 and brings the length to a multiple of 4 |
| Imposition.Pad | main.py:164-165 | the padded list starts with the chunk, has fewer than four entries more, all of them blanks, and its length is a multiple of 4 |
| Imposition.PadMultiset | main.py:164-165 | padding adds exactly the blanks |
| Imposition.DirectionOf | main.py:173 | the order is right-to-left exactly when the direction option is the string "RTL"; every other value is left-to-right |
| Imposition.Group | main.py:175-189 | one loop iteration emits four entries |
| Imposition.GroupOfSlice | main.py:175-189 | on the deque padded[f..b], LTR emits the last, the first, the second and the next-to-last entry; RTL emits the first, the last, the next-to-last and the second |
| Imposition.PopGroup | main.py:175-189 | the pops of one iteration emit that group and move both ends of the deque two places inwards |
| Imposition.DrainStep | main.py:175-189 | draining the deque is emitting one group, then draining the inner deque |
| Imposition.Drain | main.py:175-189 | the loop emits one entry for every entry of a deque whose length is a multiple of 4; DrainAt gives each entry and DrainPermutes the contents. On a remainder below 4, which padding rules out, it emits nothing |
| Imposition.DrainLength | main.py:175-191 | draining a deque of 4m entries emits 4m entries |
| Imposition.SignatureOrder | main.py:166-191 | the order emitted for a padded list has the list's length |
| Imposition.Reorder | main.py:158-191 | the reordered chunk is as long as the chunk plus its padding; ReorderCounts gives its contents, SignatureOrderAt its closed form, and ReorderForBooklet proves the deque loop computes it |
| Imposition.ReorderForBooklet | main.py:158-191 | the deque loop computes the padded signature order, of length n plus the padding |
| Imposition.DrainPermutes | main.py:175-191 | draining a deque emits every entry it holds, as often as it holds it |
| Imposition.SignatureOrderPermutes | main.py:166-191 | the signature order is a permutation of the padded list |
| Imposition.ReorderCounts | main.py:158-191 | the reordered chunk holds each real page exactly as often as the chunk does, and the chunk's blanks plus the padding |
| Imposition.SheetPagesShift | main.py:175-189 | removing two entries from each end moves every later group one step in |
| Imposition.SignatureOrderAt | main.py:175-189 | closed form: entry 4k+j is entry j of [p[n-1-2k], p[2k], p[2k+1], p[n-2-2k]] (LTR) or of [p[2k], p[n-1-2k], p[n-2-2k], p[2k+1]] (RTL) |
| Imposition.DrainAt | main.py:175-189 | the same closed form, by group k and place j, for a deque of m groups |
| Imposition.ImpositionPlacesReadingOrder | main.py:175-189 | reading page i sits in the slot that folding the stacked sheets gives it: its sheet, its face, and its half by the binding side |
| Imposition.ReadingPositionsDistinct | main.py:175-189 | different reading pages get different slots |
| Imposition.RtlMirrorsLtr | main.py:176-189 | the RTL order is the LTR order with the two halves of every face swapped |
| Imposition.EightPageOrders | main.py:158-191 | eight pages go LTR to [7,0,1,6,5,2,3,4] and RTL to [0,7,6,1,2,5,4,3] |
| Imposition.FivePageOrder | main.py:158-191 | five pages are padded with three blanks and go LTR to [blank,0,1,blank,blank,2,3,4] |
| Sheets.PairSides | main.py:208-210 | there are ceil(len / 2) output sides |
| Sheets.PairSidesAt | main.py:208-210 | side j shows entry 2j on the left and entry 2j+1 on the right, blank past the end |
| Sheets.UnpairPairSides | main.py:208-210 | reading the sides back half by half gives the list, with one blank added when its length is odd |
| Sheets.SideDraws | main.py:212-232 | a side draws at most two pages and never a blank |
| Sheets.DrawnPages | main.py:208-224 | the side loop, with its `!= -1` guards, never draws a blank; DrawnPagesPairSides shows it draws exactly the non-blank entries, in order |
| Sheets.DrawnPagesPairSides | main.py:208-234 | the pages drawn are exactly the non-blank entries, in order |
| Sheets.BookletDrawsChunk | main.py:165-234 | a booklet's sides draw every page of its chunk exactly as often as the chunk lists it |
| Sheets.SidesPlaceReadingOrder | main.py:175-234 | reading page i is on output side 2 * sheet + (back face), on the half that folding gives it |
| OutputNames.SplitExt | main.py:75 | base + ext is the path; ext is empty or one dot followed by no dot and no '/'; a non-empty ext leaves a non-dot character in base's last component; an empty ext means every dot of the last component has only dots before it |
| OutputNames.SplitExtExamples | main.py:75 | "out/booklet.pdf" splits at ".pdf"; "dir.v2/booklet" and ".pdf" have no extension |
| OutputNames.OutputName | main.py:76 | a single booklet is written to the output path itself |
| OutputNames.OutputNameShape | main.py:75-76 | with several booklets, name i is exactly base + "_part_" + str(i+1) + ext, where (base, ext) is the split of the output path |
| OutputNames.OutputNamesDistinct | main.py:75-76 | booklets of one run never share a file name |
| OutputNames.OutputNameExamples | main.py:75-76 | booklet 2 of 3 for "booklet.pdf" is "booklet_part_2.pdf" |
| Pipeline.PlanBooklets | main.py:52-79 | the run fails exactly when the selection fails or splitting is on with fewer than one sheet; selection errors pass through; without splitting, one booklet goes to the output path |
| Pipeline.PlanBookletsAsWritten | main.py:52-79 | the run with the unchecked splitter fails when the selection fails; it agrees with the checked run whenever it does not split or asks for at least one sheet; a zero sheet count fails with ZeroChunkSize |
| Pipeline.PlanBookletsFollowDirection | main.py:58-79 | in every booklet of a run, reading page i of its padded chunk sits on the side and half that folding the stacked sheets needs, in the requested direction |
| Pipeline.PlanBookletPaths | main.py:64-76 | when a run writes several booklets, booklet b is saved as base + "_part_" + str(b+1) + ext, where (base, ext) is the split of the output path |
| Pipeline.PlanBookletSides | main.py:64-69 | booklet b has exactly half as many output sides as its chunk has entries once padded: two sides per physical sheet |
| Pipeline.SidesCount | main.py:208-210 | pairing a reordered chunk gives half its padded length in sides |
| Pipeline.AsWrittenNegativeSheetsWritesNothing | main.py:58-84 | as written, a valid selection with a negative sheet count succeeds with no booklet at all |
| Pipeline.PlanWritesSomething | main.py:52-79 | a successful run writes at least one booklet, and each has at least one side |
| Pipeline.PlanPathsDistinct | main.py:75-79 | no two booklets of a run are saved to the same path |
| Pipeline.DrawnAll | main.py:208-234 | the pages drawn across booklets never include a blank |
| Pipeline.DrawnAllCounts | main.py:64-72 | the booklets of the chunks draw each page as often as the chunks list it |
| Pipeline.AscendingCount | main.py:143 | the sorted selection holds each page at most once |
| Pipeline.ChunkBookletsDrawOnce | main.py:58-72 | booklets built from a partition of the selection draw each selected page exactly once |
| Pipeline.EverySelectedPageDrawnOnce | main.py:52-79 | across all booklets of a run, every selected page is drawn exactly once and nothing else is drawn |

## Left out

- Merging the input files, passwords, opening and saving PDFs, rendering pages to images, and the temporary file. These are I/O in `main.py:98-122` and `main.py:193-206, 236-239`. The model works on page indices only.
- Image scaling and placement inside a half-side (`main.py:214-221, 225-232`). This is floating-point geometry, not page order.
- `_place_page` and `_create_page_number_overlay` (`main.py:241-284`). Nothing calls them.
- Paper size and orientation (`main.py:196-201`). They choose the canvas size and affect no page order.
- Progress and status callbacks, the exception-to-message wrapping, and `print`/`traceback`. The model returns the error value instead.
- The GUI, the worker thread, and the defaults for missing options. Every option is a field of `Pipeline.Options`. The code's default sheet count of 10 appears only as the example `Chunking.HundredPagesTenSheets`.
- Integers.ParseInt: reads ASCII digits only. Python's int() also accepts other Unicode decimal digits (Arabic-Indic digits, for instance); modelling the Unicode decimal-digit table is left out for its size.
- Integers.ParseInt: has no limit on the number of digits. Since Python 3.11 (and the 3.7.14, 3.8.14, 3.9.14 and 3.10.7 security releases), int() raises ValueError on a decimal string of more than 4300 digits, and str() raises on such a number. Such a token therefore aborts the run in Python, while the model reads it as a page number and drops it as out of range. The limit depends on the interpreter version and on `sys.set_int_max_str_digits`, so the model states the unlimited behaviour.
- Integers.ParseShowInt: holds for every integer, because the model has no digit limit. Python raises on str(n) and int(s) beyond 4300 digits, as the line above says.
- OutputNames.SplitExt: POSIX paths only ('/' as separator). The Windows variant also treats '\\' as a separator.
- Imposition.ReorderForBooklet: its contract does not repeat the permutation property. That property is stated and proved in `Imposition.ReorderCounts` about the same function `Reorder`, which the method is proved to compute.
- Imposition.SignatureOrder: defined only for lengths that are a multiple of 4. A shorter remainder never reaches the loop because padding comes first.
- Pipeline.PlanBooklets: uses the checked splitter. The splitter as written is `Chunking.SplitIntoBooklets`, reached through `Pipeline.PlanBookletsAsWritten`.

## Findings

| source | as written | input that shows it | evidently intended | confidence | as-written member | corrected member |
|---|---|---|---|---|---|---|
| main.py:150-156 | `range(0, len(page_indices), sheets_per_booklet * 4)` with a negative sheet count is an empty range, so `_split_into_booklets` returns no chunk. The run then reports success without writing any file. | split enabled, sheets_per_booklet = -1, a non-empty selection | fewer than one sheet per booklet is rejected as an error, like the zero count that makes `range()` raise, so every selected page reaches a booklet | not executed | Pipeline.AsWrittenNegativeSheetsWritesNothing | Pipeline.PlanWritesSomething |

=== FILE: chunking.dfy ===
/**
 * Splitting the selected pages into sub-booklets:
 * PdfProcessor._split_into_booklets (main.py:145-156).
 */
module Chunking {
  import opened Outcomes
  import opened Seqs

  /**
   * `[pages[i:i + size] for i in range(0, len(pages), size)]`: consecutive
   * slices of size elements, the last one possibly shorter.
   */
  function Chunks<T>(pages: seq<T>, size: nat): (cs: seq<seq<T>>)
    requires size > 0
    ensures Flatten(cs) == pages
    ensures forall k :: 0 <= k < |cs| ==> 0 < |cs[k]| <= size
    ensures forall k :: 0 <= k < |cs| - 1 ==> |cs[k]| == size
    decreases |pages|
  {
    if |pages| == 0 then []
    else if |pages| <= size then
      assert pages + [] == pages;
      [pages]
    else
      var rest := Chunks(pages[size..], size);
      assert pages == pages[..size] + pages[size..];
      [pages[..size]] + rest
  }

  /** There are ceil(|pages| / size) chunks. */
  lemma {:induction false} ChunkCount<T>(pages: seq<T>, size: nat)
    requires size > 0
    ensures |pages| <= |Chunks(pages, size)| * size
    ensures |Chunks(pages, size)| > 0 ==> (|Chunks(pages, size)| - 1) * size < |pages|
    decreases |pages|
  {
    if |pages| > size {
      ChunkCount(pages[size..], size);
      MulStep(|Chunks(pages, size)|, size);
    }
  }

  lemma MulStep(k: int, size: int)
    ensures (k - 1) * size + size == k * size
    ensures k >= 1 && size >= 0 ==> (k - 1) * size >= 0
  {
  }

  /** Chunk k is the slice of pages that starts at k * size, exactly as the loop of the source cuts it. */
  lemma ChunkIsSlice<T>(pages: seq<T>, size: nat, k: nat)
    requires size > 0 && k < |Chunks(pages, size)|
    ensures k * size < |pages|
    ensures Chunks(pages, size)[k] == pages[k * size..Min(k * size + size, |pages|)]
  {
    ChunkAt(pages, size, k, k * size);
  }

  lemma {:induction false} ChunkAt<T>(pages: seq<T>, size: nat, k: nat, offset: int)
    requires size > 0 && k < |Chunks(pages, size)| && offset == k * size
    ensures offset < |pages|
    ensures Chunks(pages, size)[k] == pages[offset..Min(offset + size, |pages|)]
    decreases |pages|
  {
    if k > 0 {
      var rest := pages[size..];
      assert Chunks(pages, size)[k] == Chunks(rest, size)[k - 1] by {
        assert Chunks(pages, size) == [pages[..size]] + Chunks(rest, size);
      }
      MulStep(k, size);
      ChunkAt(rest, size, k - 1, offset - size);
      SliceShift(pages, size, offset);
    }
  }

  lemma SliceShift<T>(pages: seq<T>, size: nat, offset: int)
    requires size <= offset < |pages|
    ensures pages[size..][offset - size..Min(offset, |pages| - size)] == pages[offset..Min(offset + size, |pages|)]
  {
  }

  function Min(a: int, b: int): int {
    if a < b then a else b
  }

  /**
   * _split_into_booklets as written. With splitting off, the whole
   * selection is one chunk. With splitting on, the chunk size is
   * sheets_per_booklet * 4: a size of zero makes range() raise ValueError,
   * and a negative size makes range(0, n, size) empty, so no chunk at all.
   */
  function SplitIntoBooklets(pages: seq<int>, splitBooklet: bool, sheetsPerBooklet: int): (r: Result<seq<seq<int>>>)
    ensures !splitBooklet ==> r == Ok([pages])
    ensures splitBooklet && sheetsPerBooklet > 0 ==>
      && r.Ok?
      && Flatten(r.value) == pages
      && (forall k :: 0 <= k < |r.value| ==> 0 < |r.value[k]| <= 4 * sheetsPerBooklet)
      && (forall k :: 0 <= k < |r.value| - 1 ==> |r.value[k]| == 4 * sheetsPerBooklet)
    ensures splitBooklet && sheetsPerBooklet == 0 ==> r == Err(ZeroChunkSize)
    ensures splitBooklet && sheetsPerBooklet < 0 ==> r == Ok([])
  {
    if !splitBooklet then Ok([pages])
    else
      var pagesPerBooklet := sheetsPerBooklet * 4;
      if pagesPerBooklet == 0 then Err(ZeroChunkSize)
      else if pagesPerBooklet < 0 then Ok([])
      else Ok(Chunks(pages, pagesPerBooklet))
  }

  /**
   * The as-written splitter loses every page when the sheet count is
   * negative: the run then reports success and writes no booklet.
   */
  lemma NegativeSheetCountDropsEveryPage(pages: seq<int>, sheetsPerBooklet: int)
    requires |pages| > 0 && sheetsPerBooklet < 0
    ensures SplitIntoBooklets(pages, true, sheetsPerBooklet) == Ok([])
    ensures Flatten(SplitIntoBooklets(pages, true, sheetsPerBooklet).value) != pages
  {
  }

  /**
   * The splitter with the sheet count checked, as the sheet-count field's
   * range of 1 to 100 intends: fewer than one sheet is an error, and every
   * successful split is a partition of the selection in order.
   */
  function SplitIntoBookletsChecked(pages: seq<int>, splitBooklet: bool, sheetsPerBooklet: int): (r: Result<seq<seq<int>>>)
    ensures r.Err? <==> splitBooklet && sheetsPerBooklet < 1
    ensures r.Ok? ==> Flatten(r.value) == pages
    ensures r.Ok? && |pages| > 0 ==> |r.value| > 0 && forall k :: 0 <= k < |r.value| ==> |r.value[k]| > 0
    ensures r.Ok? && splitBooklet ==>
      && (forall k :: 0 <= k < |r.value| ==> |r.value[k]| <= 4 * sheetsPerBooklet)
      && (forall k :: 0 <= k < |r.value| - 1 ==> |r.value[k]| == 4 * sheetsPerBooklet)
  {
    if splitBooklet && sheetsPerBooklet < 1 then
      Err(InvalidSheetCount(sheetsPerBooklet))
    else
      var r := SplitIntoBooklets(pages, splitBooklet, sheetsPerBooklet);
      assert !splitBooklet ==> Flatten(r.value) == pages + [];
      r
  }

  /** The total length of the chunks is the length of the selection. */
  lemma {:induction false} FlattenLength<T>(css: seq<seq<T>>)
    ensures |Flatten(css)| == SumLengths(css)
  {
    if |css| > 0 {
      FlattenLength(css[1..]);
    }
  }

  function SumLengths<T>(css: seq<seq<T>>): nat {
    if |css| == 0 then 0 else |css[0]| + SumLengths(css[1..])
  }

  /** 100 pages at 10 sheets per booklet: three booklets of 40, 40 and 20 pages. */
  lemma HundredPagesTenSheets(pages: seq<int>)
    requires |pages| == 100
    ensures var r := SplitIntoBookletsChecked(pages, true, 10);
      r.Ok? && |r.value| == 3 && |r.value[0]| == 40 && |r.value[1]| == 40 && |r.value[2]| == 20
  {
    var cs := SplitIntoBookletsChecked(pages, true, 10).value;
    ChunkCount(pages, 40);
    FlattenLength(cs);
    assert |cs| == 3;
    assert SumLengths(cs) == |cs[0]| + |cs[1]| + |cs[2]| by {
      assert cs[1..][0] == cs[1] && cs[1..][1..][0] == cs[2];
      assert cs[1..][1..][1..] == [];
      assert SumLengths(cs[1..][1..]) == |cs[2]|;
    }
  }
}

=== FILE: imposition.dfy ===
/**
 * Saddle-stitch signature order: PdfProcessor._reorder_for_booklet
 * (main.py:158-191). A chunk of page indices is padded with blanks to a
 * multiple of 4 and then drained from both ends, four pages per physical
 * sheet: two for its front face and two for its back face.
 */
module Imposition {

  /** The index the source uses for a blank padding page. */
  const Blank: int := -1

  /** Reading direction; the source reads the option and treats anything but "RTL" as LTR. */
  datatype Direction = LTR | RTL

  function DirectionOf(option: string): (dir: Direction)
    ensures dir == RTL <==> option == "RTL"
  {
    if option == "RTL" then RTL else LTR
  }

  /** The two faces of a printed sheet, and the two halves of a face either side of the fold. */
  datatype Face = Front | Back
  datatype Half = Left | Right

  /** A place on the stack of sheets: sheet 0 is the outermost one. */
  datatype Position = Position(sheet: nat, face: Face, half: Half)

  /** The number of blanks the source appends: the one count below 4 that makes n a multiple of 4. */
  function PaddingCount(n: nat): (k: nat)
    ensures k < 4 && (n + k) % 4 == 0
  {
    (4 - n % 4) % 4
  }

  function Blanks(k: nat): (s: seq<int>)
    ensures |s| == k && forall i :: 0 <= i < k ==> s[i] == Blank
  {
    seq(k, _ => Blank)
  }

  /** `page_indices + [-1] * padding`: the chunk followed by fewer than four blanks, to a multiple of 4. */
  function Pad(pages: seq<int>): (p: seq<int>)
    ensures |p| % 4 == 0 && |pages| <= |p| < |pages| + 4
    ensures p[..|pages|] == pages
    ensures forall i :: |pages| <= i < |p| ==> p[i] == Blank
  {
    pages + Blanks(PaddingCount(|pages|))
  }

  /**
   * One pass of the deque loop on the deque d (at least four entries): the
   * two outer entries at each end, in the order the source pops them.
   */
  function Group(d: seq<int>, dir: Direction): (g: seq<int>)
    requires 4 <= |d|
    ensures |g| == 4
  {
    var n := |d|;
    match dir
    case LTR => [d[n - 1], d[0], d[1], d[n - 2]]
    case RTL => [d[0], d[n - 1], d[n - 2], d[1]]
  }

  /**
   * What the deque loop emits for a deque d whose length is a multiple of 4:
   * one group, then the rest of d. (Shorter remainders never occur, since
   * the source pads first; they emit nothing here.)
   */
  function Drain(d: seq<int>, dir: Direction): (r: seq<int>)
    ensures |r| == |d| - |d| % 4
    decreases |d|
  {
    if |d| < 4 then [] else Group(d, dir) + Drain(d[2..|d| - 2], dir)
  }

  /** Draining m groups emits 4m entries. */
  lemma {:induction false} DrainLength(d: seq<int>, dir: Direction, m: nat)
    requires |d| == 4 * m
    ensures |Drain(d, dir)| == |d|
    decreases m
  {
    if m > 0 {
      DrainLength(d[2..|d| - 2], dir, m - 1);
    }
  }

  /** The order _reorder_for_booklet emits for a padded list p. */
  function SignatureOrder(p: seq<int>, dir: Direction): (r: seq<int>)
    requires |p| % 4 == 0
    ensures |r| == |p|
  {
    DrainLength(p, dir, |p| / 4);
    Drain(p, dir)
  }

  /** _reorder_for_booklet as a function: pad, then impose. */
  function Reorder(pages: seq<int>, dir: Direction): (r: seq<int>)
    ensures |r| == |pages| + PaddingCount(|pages|)
  {
    SignatureOrder(Pad(pages), dir)
  }

  /**
   * _reorder_for_booklet as written: a deque over the padded list, held as
   * the slice padded[front..back] and drained one group per iteration.
   */
  method ReorderForBooklet(pageIndices: seq<int>, dir: Direction) returns (reordered: seq<int>)
    ensures reordered == Reorder(pageIndices, dir)
    ensures |reordered| == |pageIndices| + PaddingCount(|pageIndices|)
  {
    var padded := Pad(pageIndices);
    var front, back := 0, |padded|;
    ghost var left: nat := |padded| / 4;
    reordered := [];
    assert padded[front..back] == padded;
    while front < back
      invariant 0 <= front <= back <= |padded|
      invariant back - front == 4 * left
      invariant reordered + Drain(padded[front..back], dir) == Drain(padded, dir)
      decreases back - front
    {
      var emitted, front', back' := PopGroup(padded, front, back, dir);
      DrainStep(padded, front, back, front', back', dir, reordered);
      reordered := reordered + emitted;
      front, back := front', back';
      left := left - 1;
    }
    assert padded[front..back] == [];
  }

  /**
   * One iteration of the loop on the deque padded[front..back]: pop (back)
   * and popleft (front) in the order of the reading direction, then, under
   * the source's `if page_deque` guard, two more.
   */
  method PopGroup(padded: seq<int>, front: nat, back: nat, dir: Direction)
    returns (emitted: seq<int>, front': nat, back': nat)
    requires front + 4 <= back <= |padded|
    ensures emitted == Group(padded[front..back], dir)
    ensures front' == front + 2 && back' == back - 2
  {
    front', back' := front, back;
    emitted := [];
    if dir == RTL {
      emitted := emitted + [padded[front']];
      front' := front' + 1;
      emitted := emitted + [padded[back' - 1]];
      back' := back' - 1;
      if front' < back' {
        emitted := emitted + [padded[back' - 1]];
        back' := back' - 1;
        emitted := emitted + [padded[front']];
        front' := front' + 1;
      }
    } else {
      emitted := emitted + [padded[back' - 1]];
      back' := back' - 1;
      emitted := emitted + [padded[front']];
      front' := front' + 1;
      if front' < back' {
        emitted := emitted + [padded[front']];
        front' := front' + 1;
        emitted := emitted + [padded[back' - 1]];
        back' := back' - 1;
      }
    }
    GroupOfSlice(padded, front, back, dir);
  }

  /**
   * One loop iteration: draining p[front..back] after the output so far is
   * emitting its group, then draining the inner slice.
   */
  lemma DrainStep(p: seq<int>, front: nat, back: nat, front': nat, back': nat, dir: Direction, out: seq<int>)
    requires front + 4 <= back <= |p| && front' == front + 2 && back' == back - 2
    ensures out + Drain(p[front..back], dir) == (out + Group(p[front..back], dir)) + Drain(p[front'..back'], dir)
  {
    InnerSlice(p, front, back);
    ConcatAssoc(out, Group(p[front..back], dir), Drain(p[front + 2..back - 2], dir));
  }

  /** The group of the deque padded[f..b], in terms of padded. */
  lemma GroupOfSlice(p: seq<int>, f: nat, b: nat, dir: Direction)
    requires f + 4 <= b <= |p|
    ensures dir == LTR ==> Group(p[f..b], dir) == [p[b - 1], p[f], p[f + 1], p[b - 2]]
    ensures dir == RTL ==> Group(p[f..b], dir) == [p[f], p[b - 1], p[b - 2], p[f + 1]]
  {
    var d := p[f..b];
    assert d[0] == p[f] && d[1] == p[f + 1] && d[|d| - 1] == p[b - 1] && d[|d| - 2] == p[b - 2];
  }

  lemma ConcatAssoc<T>(a: seq<T>, b: seq<T>, c: seq<T>)
    ensures (a + b) + c == a + (b + c)
  {
  }

  lemma InnerSlice<T>(p: seq<T>, front: nat, back: nat)
    requires front + 4 <= back <= |p|
    ensures p[front..back][2..back - front - 2] == p[front + 2..back - 2]
  {
    var a, c := p[front..back][2..back - front - 2], p[front + 2..back - 2];
    assert |a| == |c|;
    assert forall i :: 0 <= i < |a| ==> a[i] == p[front + 2 + i] == c[i];
  }

  /** Draining a deque emits every entry it holds, as often as it holds it. */
  lemma {:induction false} DrainPermutes(d: seq<int>, dir: Direction, m: nat)
    requires |d| == 4 * m
    ensures multiset(Drain(d, dir)) == multiset(d)
    decreases m
  {
    if m > 0 {
      var mid := d[2..|d| - 2];
      DrainPermutes(mid, dir, m - 1);
      GroupMultiset(d, dir);
      SplitEnds(d);
    }
  }

  /** A group holds the two outer entries at each end of its deque. */
  lemma GroupMultiset(d: seq<int>, dir: Direction)
    requires 4 <= |d|
    ensures multiset(Group(d, dir)) == multiset(d[..2]) + multiset(d[|d| - 2..])
  {
    var n := |d|;
    EndsMultiset(d);
    match dir
    case LTR => FourLtr(d[0], d[1], d[n - 2], d[n - 1]);
    case RTL => FourRtl(d[0], d[1], d[n - 2], d[n - 1]);
  }

  lemma FourLtr(a: int, b: int, c: int, e: int)
    ensures multiset([e, a, b, c]) == multiset{a, b} + multiset{c, e}
  {
  }

  lemma FourRtl(a: int, b: int, c: int, e: int)
    ensures multiset([a, e, c, b]) == multiset{a, b} + multiset{c, e}
  {
  }

  lemma EndsMultiset(d: seq<int>)
    requires 4 <= |d|
    ensures multiset(d[..2]) == multiset{d[0], d[1]}
    ensures multiset(d[|d| - 2..]) == multiset{d[|d| - 2], d[|d| - 1]}
  {
    assert d[..2] == [d[0], d[1]];
    assert d[|d| - 2..] == [d[|d| - 2], d[|d| - 1]];
  }

  lemma SplitEnds(d: seq<int>)
    requires 4 <= |d|
    ensures multiset(d) == multiset(d[..2]) + multiset(d[2..|d| - 2]) + multiset(d[|d| - 2..])
  {
    assert d == d[..2] + d[2..|d| - 2] + d[|d| - 2..];
  }

  /**
   * The four entries of the k-th group for a padded list p: iteration k
   * takes positions 2k and 2k+1 from the front and n-1-2k and n-2-2k from
   * the back.
   */
  function SheetPages(p: seq<int>, k: nat, dir: Direction): (g: seq<int>)
    requires 4 * k + 4 <= |p|
    ensures |g| == 4
  {
    var n := |p|;
    match dir
    case LTR => [p[n - 1 - 2 * k], p[2 * k], p[2 * k + 1], p[n - 2 - 2 * k]]
    case RTL => [p[2 * k], p[n - 1 - 2 * k], p[n - 2 - 2 * k], p[2 * k + 1]]
  }

  /** Dropping the outer two entries at each end moves every group one step in. */
  lemma SheetPagesShift(p: seq<int>, k: nat, dir: Direction)
    requires 0 < k && 4 * k + 4 <= |p|
    ensures SheetPages(p[2..|p| - 2], k - 1, dir) == SheetPages(p, k, dir)
  {
  }

  /**
   * The closed form: entry 4k + j of the signature order is entry j of
   * [p[n-1-2k], p[2k], p[2k+1], p[n-2-2k]] left to right and of
   * [p[2k], p[n-1-2k], p[n-2-2k], p[2k+1]] right to left.
   */
  lemma SignatureOrderAt(p: seq<int>, dir: Direction, i: nat)
    requires |p| % 4 == 0 && i < |p|
    ensures SignatureOrder(p, dir)[i] == SheetPages(p, i / 4, dir)[i % 4]
  {
    DrainAt(p, dir, |p| / 4, i / 4, i % 4);
  }

  /** The same closed form, indexed by group k and place j within it, for a list of m groups. */
  lemma {:induction false} DrainAt(p: seq<int>, dir: Direction, m: nat, k: nat, j: nat)
    requires |p| == 4 * m && k < m && j < 4
    ensures 4 * k + j < |Drain(p, dir)|
    ensures Drain(p, dir)[4 * k + j] == SheetPages(p, k, dir)[j]
    decreases k
  {
    DrainLength(p, dir, m);
    if k == 0 {
      DrainFirst(p, dir, k, j);
    } else {
      DrainRest(p, dir, m, k, j);
      DrainAt(p[2..|p| - 2], dir, m - 1, k - 1, j);
      SheetPagesShift(p, k, dir);
    }
  }

  lemma DrainFirst(p: seq<int>, dir: Direction, k: nat, j: nat)
    requires 4 <= |p| && k == 0 && j < 4
    ensures 4 * k + j < |Drain(p, dir)| && Drain(p, dir)[4 * k + j] == SheetPages(p, k, dir)[j]
  {
    assert Drain(p, dir) == Group(p, dir) + Drain(p[2..|p| - 2], dir);
  }

  lemma DrainRest(p: seq<int>, dir: Direction, m: nat, k: nat, j: nat)
    requires |p| == 4 * m && 0 < k < m && j < 4
    ensures 4 * (k - 1) + j < |Drain(p[2..|p| - 2], dir)|
    ensures Drain(p, dir)[4 * k + j] == Drain(p[2..|p| - 2], dir)[4 * (k - 1) + j]
  {
    DrainLength(p[2..|p| - 2], dir, m - 1);
    assert Drain(p, dir) == Group(p, dir) + Drain(p[2..|p| - 2], dir);
  }

  /** The signature order is a permutation of the padded list. */
  lemma SignatureOrderPermutes(p: seq<int>, dir: Direction)
    requires |p| % 4 == 0
    ensures multiset(SignatureOrder(p, dir)) == multiset(p)
  {
    DrainPermutes(p, dir, |p| / 4);
  }

  /** Padding adds exactly the blanks. */
  lemma PadMultiset(pages: seq<int>)
    ensures multiset(Pad(pages)) == multiset(pages) + multiset(Blanks(PaddingCount(|pages|)))
  {
  }

  /**
   * The reordered chunk holds every page index of the chunk as often as the
   * chunk does, and the blanks of the chunk plus the padding ones; a chunk
   * of distinct real pages therefore has each of them exactly once.
   */
  lemma ReorderCounts(pages: seq<int>, dir: Direction)
    ensures |Reorder(pages, dir)| == |pages| + PaddingCount(|pages|)
    ensures multiset(Reorder(pages, dir))[Blank] == multiset(pages)[Blank] + PaddingCount(|pages|)
    ensures forall x :: x != Blank ==> multiset(Reorder(pages, dir))[x] == multiset(pages)[x]
  {
    SignatureOrderPermutes(Pad(pages), dir);
    PadMultiset(pages);
    BlanksMultiset(PaddingCount(|pages|));
  }

  lemma BlanksMultiset(k: nat)
    ensures multiset(Blanks(k))[Blank] == k
    ensures forall x :: x != Blank ==> multiset(Blanks(k))[x] == 0
  {
    if k > 0 {
      assert Blanks(k) == Blanks(k - 1) + [Blank];
      BlanksMultiset(k - 1);
    }
  }

  function Flip(h: Half): Half {
    match h
    case Left => Right
    case Right => Left
  }

  /**
   * Where reading page i (0-based) of an n-page signature must be printed
   * so that the stacked sheets, folded once down the middle, read in order.
   * The sheets nest: sheet s carries the two pages 2s, 2s+1 that are s
   * leaves from the front cover and the two pages n-1-2s, n-2-2s that are
   * s leaves from the back cover. The two pages of one leaf are back to
   * back, so they lie on opposite faces and opposite halves. Bound on the
   * left (LTR), the front face of each sheet shows the later page on the
   * left half and the earlier one on the right half; bound on the right
   * (RTL), the halves are swapped.
   */
  function ReadingPosition(i: nat, n: nat, dir: Direction): (pos: Position)
    requires n % 4 == 0 && i < n
    ensures 4 * pos.sheet < n
  {
    var firstHalf := i < n / 2;
    var j := if firstHalf then i else n - 1 - i;
    var face := if j % 2 == 0 then Front else Back;
    var half := if firstHalf == (j % 2 == 0) then Right else Left;
    Position(j / 2, face, if dir == LTR then half else Flip(half))
  }

  /** The index into the emitted list of a position: four entries per sheet, front face first, left half first. */
  function SlotIndex(pos: Position): nat {
    4 * pos.sheet + (if pos.face == Back then 2 else 0) + (if pos.half == Right then 1 else 0)
  }

  /**
   * The signature order puts every reading page where the folding
   * argument says it belongs: entry SlotIndex(ReadingPosition(i)) is p[i].
   */
  lemma ImpositionPlacesReadingOrder(p: seq<int>, dir: Direction, i: nat)
    requires |p| % 4 == 0 && i < |p|
    ensures SlotIndex(ReadingPosition(i, |p|, dir)) < |p|
    ensures SignatureOrder(p, dir)[SlotIndex(ReadingPosition(i, |p|, dir))] == p[i]
  {
    var pos := ReadingPosition(i, |p|, dir);
    var x := (if pos.face == Back then 2 else 0) + (if pos.half == Right then 1 else 0);
    ReadingPageInSheet(p, dir, i);
    DrainAt(p, dir, |p| / 4, pos.sheet, x);
  }

  /** Within its sheet, reading page i sits at place 2 * (face is Back) + (half is Right) of the sheet's four. */
  lemma ReadingPageInSheet(p: seq<int>, dir: Direction, i: nat)
    requires |p| % 4 == 0 && i < |p|
    ensures var pos := ReadingPosition(i, |p|, dir);
      SheetPages(p, pos.sheet, dir)[(if pos.face == Back then 2 else 0) + (if pos.half == Right then 1 else 0)] == p[i]
  {
    var n := |p|;
    var firstHalf := i < n / 2;
    var j := if firstHalf then i else n - 1 - i;
    var s, b := j / 2, j % 2;
    assert j == 2 * s + b && b < 2;
    assert firstHalf ==> i == 2 * s + b;
    assert !firstHalf ==> i == n - 1 - 2 * s - b;
  }

  /** Different reading pages go to different slots, so the slots are a bijection onto [0, n). */
  lemma ReadingPositionsDistinct(n: nat, dir: Direction, i: nat, i': nat)
    requires n % 4 == 0 && i < n && i' < n && i != i'
    ensures SlotIndex(ReadingPosition(i, n, dir)) != SlotIndex(ReadingPosition(i', n, dir))
  {
    var ids := seq(n, k => k);
    ImpositionPlacesReadingOrder(ids, dir, i);
    ImpositionPlacesReadingOrder(ids, dir, i');
  }

  /** The right-to-left order is the left-to-right one with the two halves of every face swapped. */
  lemma RtlMirrorsLtr(p: seq<int>, k: nat)
    requires |p| % 4 == 0 && 4 * k + 4 <= |p|
    ensures SignatureOrder(p, RTL)[4 * k] == SignatureOrder(p, LTR)[4 * k + 1]
    ensures SignatureOrder(p, RTL)[4 * k + 1] == SignatureOrder(p, LTR)[4 * k]
    ensures SignatureOrder(p, RTL)[4 * k + 2] == SignatureOrder(p, LTR)[4 * k + 3]
    ensures SignatureOrder(p, RTL)[4 * k + 3] == SignatureOrder(p, LTR)[4 * k + 2]
  {
    var m := |p| / 4;
    DrainAt(p, RTL, m, k, 0);
    DrainAt(p, RTL, m, k, 1);
    DrainAt(p, RTL, m, k, 2);
    DrainAt(p, RTL, m, k, 3);
    DrainAt(p, LTR, m, k, 0);
    DrainAt(p, LTR, m, k, 1);
    DrainAt(p, LTR, m, k, 2);
    DrainAt(p, LTR, m, k, 3);
  }

  /** On eight pages the left-to-right order is [7,0,1,6,5,2,3,4] and the right-to-left order [0,7,6,1,2,5,4,3]. */
  lemma EightPageOrders()
    ensures Reorder([0, 1, 2, 3, 4, 5, 6, 7], LTR) == [7, 0, 1, 6, 5, 2, 3, 4]
    ensures Reorder([0, 1, 2, 3, 4, 5, 6, 7], RTL) == [0, 7, 6, 1, 2, 5, 4, 3]
  {
    assert Pad([0, 1, 2, 3, 4, 5, 6, 7]) == [0, 1, 2, 3, 4, 5, 6, 7];
  }

  /** Five single pages pad to eight with three blanks; left to right the sheet faces are [blank, 0], [1, blank], [blank, 2], [3, 4]. */
  lemma FivePageOrder()
    ensures Pad([0, 1, 2, 3, 4]) == [0, 1, 2, 3, 4, Blank, Blank, Blank]
    ensures Reorder([0, 1, 2, 3, 4], LTR) == [Blank, 0, 1, Blank, Blank, 2, 3, 4]
  {
    assert Pad([0, 1, 2, 3, 4]) == [0, 1, 2, 3, 4, Blank, Blank, Blank];
  }
}

=== FILE: integers.dfy ===
/**
 * Python's int() on a decimal string and str() on an integer, for the
 * ASCII digits the page-range field and the output file names use.
 */
module Integers {
  import opened Outcomes

  predicate IsDigit(c: char) {
    '0' <= c <= '9'
  }

  function DigitValue(c: char): (d: nat)
    requires IsDigit(c)
    ensures d < 10
  {
    (c as int) - ('0' as int)
  }

  function DigitChar(d: nat): (c: char)
    requires d < 10
    ensures IsDigit(c) && DigitValue(c) == d
  {
    (('0' as int) + d) as char
  }

  /**
   * The body of a base-10 literal int() accepts: one or more digits, where a
   * single underscore may stand between two digits ("1_000"). Leading zeros
   * are allowed.
   */
  predicate IsDigitString(s: string) {
    && |s| > 0
    && IsDigit(s[0])
    && IsDigit(s[|s| - 1])
    && forall i :: 0 < i < |s| ==> DigitOrJoiner(s, i)
  }

  /** Position i of s holds a digit, or an underscore that follows a digit. */
  predicate DigitOrJoiner(s: string, i: int)
    requires 0 < i < |s|
  {
    IsDigit(s[i]) || (s[i] == '_' && IsDigit(s[i - 1]))
  }

  lemma DigitStringChars(s: string)
    requires IsDigitString(s)
    ensures forall i :: 0 <= i < |s| ==> IsDigit(s[i]) || s[i] == '_'
  {
    forall i | 0 <= i < |s|
      ensures IsDigit(s[i]) || s[i] == '_'
    {
      if i > 0 {
        assert DigitOrJoiner(s, i);
      }
    }
  }

  /** The value of a string of digits and underscores, the underscores ignored. */
  function DigitsValue(s: string): nat
    requires forall i :: 0 <= i < |s| ==> IsDigit(s[i]) || s[i] == '_'
  {
    if |s| == 0 then 0
    else
      var init := DigitsValue(s[..|s| - 1]);
      if s[|s| - 1] == '_' then init else 10 * init + DigitValue(s[|s| - 1])
  }

  /** int(s) on a string without surrounding white space: an optional sign, then a digit string. */
  function ParseInt(s: string): (r: Option<int>)
    ensures r.Some? ==> exists i :: 0 <= i < |s| && IsDigit(s[i])
    ensures r.Some? && r.value < 0 ==> |s| > 0 && s[0] == '-'
  {
    if |s| > 0 && (s[0] == '+' || s[0] == '-') then
      var body := s[1..];
      if IsDigitString(body) then
        DigitStringChars(body);
        var v: int := DigitsValue(body);
        Some(if s[0] == '-' then -v else v)
      else None
    else if IsDigitString(s) then
      DigitStringChars(s);
      Some(DigitsValue(s))
    else None
  }

  /** str(n) for a natural number: its decimal digits without leading zeros. */
  function ShowNat(n: nat): (s: string)
    ensures |s| > 0
    ensures forall i :: 0 <= i < |s| ==> IsDigit(s[i])
  {
    if n < 10 then [DigitChar(n)] else ShowNat(n / 10) + [DigitChar(n % 10)]
  }

  /** str(n) for any integer. */
  function ShowInt(n: int): string {
    if n < 0 then "-" + ShowNat(-n) else ShowNat(n)
  }

  /** Reading back the digits of a natural number gives that number. */
  lemma {:induction false} DigitsValueShowNat(n: nat)
    ensures DigitsValue(ShowNat(n)) == n
  {
    if n >= 10 {
      var s := ShowNat(n);
      assert s[..|s| - 1] == ShowNat(n / 10);
      DigitsValueShowNat(n / 10);
    }
  }

  /** int(str(n)) == n for every integer n. */
  lemma ParseShowInt(n: int)
    ensures ParseInt(ShowInt(n)) == Some(n)
  {
    var m := if n < 0 then -n else n;
    DigitsValueShowNat(m);
    var d := ShowNat(m);
    if n < 0 {
      assert ShowInt(n)[1..] == d;
    }
  }

  /** str() is injective on natural numbers. */
  lemma ShowNatInjective(a: nat, b: nat)
    requires ShowNat(a) == ShowNat(b)
    ensures a == b
  {
    ParseShowInt(a);
    ParseShowInt(b);
  }

  /** int() rejects the empty string, a lone sign and a word. */
  lemma ParseIntRejects()
    ensures ParseInt("") == None
    ensures ParseInt("+") == None
    ensures ParseInt("a") == None
    ensures ParseInt("1__0") == None
    ensures ParseInt("_1") == None
  {
    assert !IsDigitString("1__0") by { assert !DigitOrJoiner("1__0", 2); }
    assert !IsDigitString("_1") by { assert "_1"[0] == '_'; }
  }

  /** int() accepts a sign, leading zeros and underscores between digits. */
  lemma ParseIntAccepts()
    ensures ParseInt("+7") == Some(7)
    ensures ParseInt("007") == Some(7)
    ensures ParseInt("1_0") == Some(10)
  {
    assert IsDigitString("7");
    assert "+7"[1..] == "7";
    assert IsDigitString("007");
    assert IsDigitString("1_0");
    assert "1_0"[..2] == "1_" && "1_"[..1] == "1" && "007"[..2] == "00" && "00"[..1] == "0";
  }
}

=== FILE: outcomes.dfy ===
/** Failure-compatible results and the errors that stop a booklet run. */
module Outcomes {

  /** Every way the page-ordering pipeline can abort a run. */
  datatype BookletError =
    | MalformedRange(token: string)   // int() raised ValueError while reading a page-range token
    | EmptySelection                  // the page range selected no page at all
    | ZeroChunkSize                   // range() was given a step of zero
    | InvalidSheetCount(sheets: int)  // fewer than one sheet per sub-booklet was requested

  /** The value of a step, or the error that ended the run. */
  datatype Result<+T> = Ok(value: T) | Err(error: BookletError) {

    predicate IsFailure() {
      Err?
    }

    function PropagateFailure<U>(): Result<U>
      requires Err?
    {
      Err(error)
    }

    function Extract(): T
      requires Ok?
    {
      value
    }
  }

  /** A value that may be missing. */
  datatype Option<+T> = None | Some(value: T)
}

=== FILE: output_names.dfy ===
/**
 * Output file names (main.py:75-76): one booklet is written to the output
 * path itself; several are written to `{base}_part_{i+1}{ext}`, where
 * (base, ext) is os.path.splitext of the output path, here on a POSIX path
 * (the separator is '/').
 */
module OutputNames {
  import opened Integers

  /** The index of the last occurrence of c in s, or -1. */
  function LastIndexOf(s: string, c: char): (r: int)
    ensures -1 <= r < |s|
    ensures r >= 0 ==> s[r] == c
    ensures forall k :: r < k < |s| ==> s[k] != c
  {
    if |s| == 0 then -1
    else if s[|s| - 1] == c then |s| - 1
    else LastIndexOf(s[..|s| - 1], c)
  }

  /** The last occurrence is the one with no occurrence after it. */
  lemma LastIndexOfIs(s: string, c: char, r: int)
    requires -1 <= r < |s|
    requires r >= 0 ==> s[r] == c
    requires forall k :: r < k < |s| ==> s[k] != c
    ensures LastIndexOf(s, c) == r
  {
  }

  /** Whether some character of s[from..to] is not a dot. */
  predicate HasNonDot(s: string, from: nat, to: nat)
    requires from <= to <= |s|
  {
    exists k :: from <= k < to && s[k] != '.'
  }

  /**
   * os.path.splitext: the extension starts at the last dot, provided that
   * dot comes after the last '/' and the file name before it is not only
   * dots (so ".bashrc" and "a/..b" have no extension).
   */
  function SplitExt(path: string): (parts: (string, string))
    ensures parts.0 + parts.1 == path
    ensures parts.1 == [] || (parts.1[0] == '.' && '/' !in parts.1 && '.' !in parts.1[1..])
    ensures parts.1 != [] ==> exists k :: 0 <= k < |parts.0| && parts.0[k] != '.' && '/' !in parts.0[k..]
    ensures parts.1 == [] ==> NoExtension(path)
  {
    var sep := LastIndexOf(path, '/');
    var dot := LastIndexOf(path, '.');
    if dot > sep && HasNonDot(path, sep + 1, dot) then
      assert path[..dot] + path[dot..] == path;
      (path[..dot], path[dot..])
    else
      NoExtensionFound(path, sep, dot);
      assert path + [] == path;
      (path, [])
  }

  /**
   * The last path component has no dot that follows a non-dot character:
   * every character of it before a dot is itself a dot.
   */
  ghost predicate NoExtension(path: string) {
    forall k, d :: 0 <= k < d < |path| && path[d] == '.' && '/' !in path[k..] ==> path[k] == '.'
  }

  /** When the last dot does not start an extension, no dot does. */
  lemma NoExtensionFound(path: string, sep: int, dot: int)
    requires sep == LastIndexOf(path, '/') && dot == LastIndexOf(path, '.')
    requires !(dot > sep && HasNonDot(path, sep + 1, dot))
    ensures NoExtension(path)
  {
    forall k, d | 0 <= k < d < |path| && path[d] == '.' && '/' !in path[k..]
      ensures path[k] == '.'
    {
      assert sep < k < d <= dot;
    }
  }

  /** The name booklet i (0-based) of total is written to. */
  function OutputName(outputPath: string, i: nat, total: nat): (name: string)
    ensures total <= 1 ==> name == outputPath
  {
    if total > 1 then
      var (base, ext) := SplitExt(outputPath);
      base + "_part_" + ShowNat(i + 1) + ext
    else
      outputPath
  }

  /** With several booklets, booklet i's name is the output path with "_part_" and i + 1 inserted before the extension. */
  lemma OutputNameShape(outputPath: string, i: nat, total: nat)
    requires total > 1
    ensures OutputName(outputPath, i, total) == SplitExt(outputPath).0 + "_part_" + ShowNat(i + 1) + SplitExt(outputPath).1
  {
  }

  /** No two booklets of one run are written to the same file. */
  lemma OutputNamesDistinct(outputPath: string, i: nat, j: nat, total: nat)
    requires i != j
    requires i < total && j < total
    ensures OutputName(outputPath, i, total) != OutputName(outputPath, j, total)
  {
    var (base, ext) := SplitExt(outputPath);
    var a, b := ShowNat(i + 1), ShowNat(j + 1);
    var prefix := base + "_part_";
    if OutputName(outputPath, i, total) == OutputName(outputPath, j, total) {
      assert prefix + a + ext == prefix + b + ext;
      assert (prefix + a + ext)[|prefix|..] == a + ext;
      assert (prefix + b + ext)[|prefix|..] == b + ext;
      assert |a| == |b|;
      assert a == (a + ext)[..|a|] == (b + ext)[..|b|] == b;
      ShowNatInjective(i + 1, j + 1);
    }
  }

  /** An extension after the last '/', none in a directory name, and none for a dot-file. */
  lemma SplitExtExamples()
    ensures SplitExt("out/booklet.pdf") == ("out/booklet", ".pdf")
    ensures SplitExt("dir.v2/booklet") == ("dir.v2/booklet", "")
    ensures SplitExt(".pdf") == (".pdf", "")
  {
    LastIndexOfIs("out/booklet.pdf", '/', 3);
    LastIndexOfIs("out/booklet.pdf", '.', 11);
    assert HasNonDot("out/booklet.pdf", 4, 11) by {
      assert "out/booklet.pdf"[4] != '.';
    }
    assert "out/booklet.pdf"[..11] == "out/booklet" && "out/booklet.pdf"[11..] == ".pdf";
    LastIndexOfIs("dir.v2/booklet", '.', 3);
    LastIndexOfIs("dir.v2/booklet", '/', 6);
    LastIndexOfIs(".pdf", '.', 0);
    LastIndexOfIs(".pdf", '/', -1);
  }

  /** One booklet keeps the output path; the second of three goes to "booklet_part_2.pdf". */
  lemma OutputNameExamples()
    ensures OutputName("booklet.pdf", 0, 1) == "booklet.pdf"
    ensures OutputName("booklet.pdf", 1, 3) == "booklet_part_2.pdf"
  {
    LastIndexOfIs("booklet.pdf", '/', -1);
    LastIndexOfIs("booklet.pdf", '.', 7);
    assert HasNonDot("booklet.pdf", 0, 7) by {
      assert "booklet.pdf"[0] != '.';
    }
    assert "booklet.pdf"[..7] == "booklet" && "booklet.pdf"[7..] == ".pdf";
    assert ShowNat(2) == "2";
  }
}

=== FILE: page_range.dfy ===
/**
 * The page-range field: PdfProcessor._parse_page_range (main.py:124-143)
 * and the check of create_booklet that rejects an empty selection
 * (main.py:52-54). Page numbers in the field are 1-based; the result holds
 * 0-based page indices.
 */
module PageRange {
  import opened Outcomes
  import opened Text
  import opened Integers

  /** One token of the field: a single 1-based page number, or an inclusive span `first-last`. */
  datatype Token = Single(page: int) | Span(first: int, last: int)

  /** True when the token names the 1-based page number p. A reversed span names nothing. */
  predicate Names(tok: Token, p: int) {
    match tok
    case Single(n) => p == n
    case Span(a, b) => a <= p <= b
  }

  /**
   * Reads one token. A token with a dash must split into exactly two halves
   * that int() accepts; any other token must itself be accepted by int().
   * Everything else is the ValueError that aborts the run.
   */
  function ParseToken(t: string): (r: Result<Token>)
    ensures r.Err? ==> r.error == MalformedRange(t)
    ensures r.Ok? ==> (r.value.Span? <==> '-' in t)
  {
    if '-' in t then
      var halves := SplitOn(t, '-');
      if |halves| == 2 && ParseInt(halves[0]).Some? && ParseInt(halves[1]).Some? then
        Ok(Span(ParseInt(halves[0]).value, ParseInt(halves[1]).value))
      else
        Err(MalformedRange(t))
    else
      match ParseInt(t)
      case Some(n) => Ok(Single(n))
      case None => Err(MalformedRange(t))
  }

  /** True when the token text is well formed and names the 1-based page number p. */
  predicate TokenNames(t: string, p: int) {
    ParseToken(t).Ok? && Names(ParseToken(t).value, p)
  }

  /** True when some token of ts names the 1-based page number p. */
  predicate Requested(ts: seq<string>, p: int) {
    exists k :: 0 <= k < |ts| && TokenNames(ts[k], p)
  }

  /** pages holds exactly the 0-based indices below total of the pages some token of ts names. */
  ghost predicate SelectionOf(pages: seq<int>, ts: seq<string>, total: nat) {
    forall i :: i in pages <==> 0 <= i < total && Requested(ts, i + 1)
  }

  /** Every token of ts is a well-formed page number or span. */
  predicate AllWellFormed(ts: seq<string>) {
    forall k :: 0 <= k < |ts| ==> ParseToken(ts[k]).Ok?
  }

  /** Every entry of xs is a 0-based index of a document of total pages. */
  predicate WithinPages(xs: seq<int>, total: nat) {
    forall k :: 0 <= k < |xs| ==> 0 <= xs[k] < total
  }

  /** e is the error of the first malformed token of ts, all tokens before it being well formed. */
  predicate FirstMalformed(ts: seq<string>, e: BookletError) {
    exists k :: 0 <= k < |ts| && ParseToken(ts[k]) == Err(e) && forall j :: 0 <= j < k ==> ParseToken(ts[j]).Ok?
  }

  /**
   * `for i in range(first, last + 1): if 1 <= i <= total_pages: indices.add(i - 1)`:
   * the 0-based indices the loop adds for the page numbers first..last.
   */
  function RangePages(first: int, last: int, total: nat): (s: set<int>)
    ensures forall i :: i in s <==> 0 <= i < total && first <= i + 1 <= last
    decreases last - first
  {
    if first > last then {}
    else (if 1 <= first <= total then {first - 1} else {}) + RangePages(first + 1, last, total)
  }

  /** The 0-based indices a token adds: the pages it names that exist in a document of total pages. */
  function Pages(tok: Token, total: nat): (s: set<int>)
    ensures forall i :: i in s <==> 0 <= i < total && Names(tok, i + 1)
  {
    match tok
    case Single(n) => if 1 <= n <= total then {n - 1} else {}
    case Span(first, last) => RangePages(first, last, total)
  }

  /** The loop over the tokens: the union of the pages they add, or the error of the first malformed one. */
  function Collect(ts: seq<string>, total: nat): (r: Result<set<int>>)
    ensures r.Ok? <==> forall k :: 0 <= k < |ts| ==> ParseToken(ts[k]).Ok?
    ensures r.Ok? ==> forall i :: i in r.value <==> 0 <= i < total && Requested(ts, i + 1)
    ensures r.Err? ==> FirstMalformed(ts, r.error)
  {
    if |ts| == 0 then Ok({})
    else
      var tok :- ParseToken(ts[0]);
      var rest :- Collect(ts[1..], total);
      CollectStep(ts, total, tok, rest);
      Ok(Pages(tok, total) + rest)
  }

  lemma CollectStep(ts: seq<string>, total: nat, tok: Token, rest: set<int>)
    requires |ts| > 0 && ParseToken(ts[0]) == Ok(tok)
    requires forall i :: i in rest <==> 0 <= i < total && Requested(ts[1..], i + 1)
    ensures forall i :: i in Pages(tok, total) + rest <==> 0 <= i < total && Requested(ts, i + 1)
  {
    forall i | 0 <= i < total && Requested(ts, i + 1)
      ensures i in Pages(tok, total) + rest
    {
      var k :| 0 <= k < |ts| && TokenNames(ts[k], i + 1);
      if k > 0 {
        assert TokenNames(ts[1..][k - 1], i + 1);
      }
    }
    forall i | i in rest
      ensures Requested(ts, i + 1)
    {
      var k :| 0 <= k < |ts[1..]| && TokenNames(ts[1..][k], i + 1);
      assert TokenNames(ts[k + 1], i + 1);
    }
    forall i | i in Pages(tok, total)
      ensures Requested(ts, i + 1)
    {
      assert TokenNames(ts[0], i + 1);
    }
  }

  predicate StrictlyAscending(xs: seq<int>) {
    forall i, j :: 0 <= i < j < |xs| ==> xs[i] < xs[j]
  }

  /** The members of s within [lo, hi), in ascending order. */
  function Ascending(s: set<int>, lo: int, hi: int): (xs: seq<int>)
    ensures StrictlyAscending(xs)
    ensures forall x :: x in xs <==> lo <= x < hi && x in s
    ensures forall k :: 0 <= k < |xs| ==> lo <= xs[k] < hi
    decreases hi - lo
  {
    if lo >= hi then []
    else
      var rest := Ascending(s, lo + 1, hi);
      (if lo in s then [lo] else []) + rest
  }

  /** `sorted(list(s))` for a set of indices below total. */
  function SortedIndices(s: set<int>, total: nat): (xs: seq<int>)
    requires forall x :: x in s ==> 0 <= x < total
    ensures StrictlyAscending(xs)
    ensures forall x :: x in xs <==> x in s
    ensures forall k :: 0 <= k < |xs| ==> 0 <= xs[k] < total
  {
    Ascending(s, 0, total)
  }

  /** A set has one strictly ascending listing: SortedIndices is the sorted list of its set. */
  lemma {:induction false} StrictlyAscendingUnique(a: seq<int>, b: seq<int>)
    requires StrictlyAscending(a) && StrictlyAscending(b)
    requires forall x :: x in a <==> x in b
    ensures a == b
    decreases |a|
  {
    SameMembersSameEmptiness(a, b);
    if |a| > 0 {
      assert a[0] in b && b[0] in a;
      assert a[0] == b[0] by {
        var i :| 0 <= i < |a| && a[i] == b[0];
        var j :| 0 <= j < |b| && b[j] == a[0];
        assert a[0] <= a[i] && b[0] <= b[j];
      }
      forall x
        ensures x in a[1..] <==> x in b[1..]
      {
        assert x in a[1..] <==> x in a && x != a[0];
        assert x in b[1..] <==> x in b && x != b[0];
      }
      StrictlyAscendingUnique(a[1..], b[1..]);
      assert a == [a[0]] + a[1..] && b == [b[0]] + b[1..];
    }
  }

  lemma SameMembersSameEmptiness(a: seq<int>, b: seq<int>)
    requires forall x :: x in a <==> x in b
    ensures |a| == 0 <==> |b| == 0
  {
    if |a| > 0 {
      var x := a[0];
      assert x in a;
    }
    if |b| > 0 {
      var x := b[0];
      assert x in b;
    }
  }

  /** A strictly ascending list of indices below n holds at most n of them. */
  lemma AscendingWithinBound(xs: seq<int>, n: nat)
    requires StrictlyAscending(xs)
    requires forall k :: 0 <= k < |xs| ==> 0 <= xs[k] < n
    ensures |xs| <= n
  {
    if |xs| > 0 {
      AscendingGrows(xs, |xs| - 1);
      assert 0 <= xs[0] && xs[|xs| - 1] < n;
    }
  }

  lemma {:induction false} AscendingGrows(xs: seq<int>, k: nat)
    requires StrictlyAscending(xs) && k < |xs|
    ensures xs[k] >= xs[0] + k
  {
    if k > 0 {
      AscendingGrows(xs, k - 1);
    }
  }

  /** `list(range(total_pages))`: every page index in order. */
  function AllPages(totalPages: nat): (xs: seq<int>)
    ensures |xs| == totalPages && forall k :: 0 <= k < totalPages ==> xs[k] == k
    ensures StrictlyAscending(xs)
  {
    seq(totalPages, i => i)
  }

  /** The loop and the sort of _parse_page_range over the tokens ts of a non-blank field. */
  function SelectTokens(ts: seq<string>, totalPages: nat): (r: Result<seq<int>>)
    ensures r.Ok? <==> AllWellFormed(ts)
    ensures r.Ok? ==> StrictlyAscending(r.value) && WithinPages(r.value, totalPages)
    ensures r.Ok? ==> SelectionOf(r.value, ts, totalPages)
    ensures r.Err? ==> FirstMalformed(ts, r.error)
  {
    match Collect(ts, totalPages)
    case Err(e) => Err(e)
    case Ok(pages) => Ok(SortedIndices(pages, totalPages))
  }

  /**
   * _parse_page_range: a blank field selects every page in order; otherwise
   * the sorted, duplicate-free 0-based indices of the pages the tokens name,
   * numbers outside [1, total] dropped, or the error of the first malformed
   * token.
   */
  function ParsePageRange(rangeText: string, totalPages: nat): (r: Result<seq<int>>)
    ensures IsBlank(rangeText) ==> r == Ok(AllPages(totalPages))
    ensures r.Ok? ==> StrictlyAscending(r.value) && WithinPages(r.value, totalPages)
    ensures !IsBlank(rangeText) ==> (r.Ok? <==> AllWellFormed(Tokens(rangeText)))
    ensures r.Ok? && !IsBlank(rangeText) ==> SelectionOf(r.value, Tokens(rangeText), totalPages)
    ensures r.Err? ==> FirstMalformed(Tokens(rangeText), r.error)
  {
    var stripped := Strip(rangeText);
    if |stripped| == 0 then
      assert IsBlank(rangeText);
      Ok(AllPages(totalPages))
    else
      assert !IsBlank(rangeText);
      ParseFilled(rangeText, stripped, totalPages)
  }

  /** The non-blank case: the tokens of the stripped field are those of the field. */
  function ParseFilled(rangeText: string, stripped: string, totalPages: nat): (r: Result<seq<int>>)
    requires stripped == Strip(rangeText) && !IsBlank(rangeText)
    ensures r.Ok? ==> StrictlyAscending(r.value) && WithinPages(r.value, totalPages)
    ensures r.Ok? <==> AllWellFormed(Tokens(rangeText))
    ensures r.Ok? ==> SelectionOf(r.value, Tokens(rangeText), totalPages)
    ensures r.Err? ==> FirstMalformed(Tokens(rangeText), r.error)
  {
    TokensStrip(rangeText);
    SelectTokens(Tokens(stripped), totalPages)
  }

  /**
   * Lines 52-54 of create_booklet: the parsed selection, or EmptySelection
   * when it holds no page.
   */
  function SelectPages(rangeText: string, totalPages: nat): (r: Result<seq<int>>)
    ensures r.Ok? ==> Ok(r.value) == ParsePageRange(rangeText, totalPages) && |r.value| > 0
    ensures r == Err(EmptySelection) <==> ParsePageRange(rangeText, totalPages) == Ok([])
    ensures r.Err? && r.error.MalformedRange? <==> ParsePageRange(rangeText, totalPages).Err?
    ensures IsBlank(rangeText) ==> (r.Ok? <==> totalPages > 0)
    ensures ParsePageRange(rangeText, totalPages).Err? ==> r == ParsePageRange(rangeText, totalPages)
    ensures ParsePageRange(rangeText, totalPages).Ok? && |ParsePageRange(rangeText, totalPages).value| > 0 ==> r == ParsePageRange(rangeText, totalPages)
    ensures r.Err? ==> r.error == EmptySelection || r.error.MalformedRange?
  {
    var pages :- ParsePageRange(rangeText, totalPages);
    if |pages| == 0 then Err(EmptySelection) else Ok(pages)
  }

  /** A successful selection holds between 1 and totalPages distinct pages. */
  lemma SelectionSize(rangeText: string, totalPages: nat)
    requires SelectPages(rangeText, totalPages).Ok?
    ensures 0 < |SelectPages(rangeText, totalPages).value| <= totalPages
  {
    AscendingWithinBound(SelectPages(rangeText, totalPages).value, totalPages);
  }

  /** A span written first-last with first > last is well formed and selects nothing. */
  lemma ReversedSpanSelectsNothing(first: int, last: int, total: nat)
    requires first > last
    ensures Pages(Span(first, last), total) == {}
  {
  }

  /** Tokens int() cannot read, or that do not split into two readable halves, abort the run. */
  lemma MalformedTokens()
    ensures ParseToken("a") == Err(MalformedRange("a"))
    ensures ParseToken("1-2-3") == Err(MalformedRange("1-2-3"))
    ensures ParseToken("-3") == Err(MalformedRange("-3"))
    ensures ParseToken("3-") == Err(MalformedRange("3-"))
  {
    ParseIntRejects();
    assert '-' in "1-2-3" && '-' in "-3" && '-' in "3-";
    assert "1-2-3"[1] == '-';
    assert |SplitOn("1-2-3", '-')| == 3;
    assert SplitOn("-3", '-')[0] == "";
    assert SplitOn("3-", '-')[1] == "";
  }

  /** Whatever numbers a and b are, the tokens str(a) and "str(a)-str(b)" read back as that page and that span. */
  lemma ParseTokenShow(a: nat, b: nat)
    ensures ParseToken(ShowNat(a)) == Ok(Single(a))
    ensures ParseToken(ShowNat(a) + "-" + ShowNat(b)) == Ok(Span(a, b))
  {
    ParseShowInt(a);
    ParseShowInt(b);
    NoDashInDigits(ShowNat(a));
    NoDashInDigits(ShowNat(b));
    SplitOnAround(ShowNat(a), '-', ShowNat(b));
    assert ShowNat(a) + "-" + ShowNat(b) == ShowNat(a) + ['-'] + ShowNat(b);
    assert (ShowNat(a) + ['-'] + ShowNat(b))[|ShowNat(a)|] == '-';
  }

  lemma NoDashInDigits(s: string)
    requires forall i :: 0 <= i < |s| ==> IsDigit(s[i])
    ensures '-' !in s
  {
  }

  /** Splitting at the only occurrence of c gives the two sides. */
  lemma {:induction false} SplitOnAround(x: string, c: char, y: string)
    requires c !in x && c !in y
    ensures SplitOn(x + [c] + y, c) == [x, y]
    decreases |x|
  {
    if |x| == 0 {
      assert x + [c] + y == [c] + y;
      assert ([c] + y)[1..] == y;
      SplitOnAbsent(y, c);
    } else {
      SplitOnAround(x[1..], c, y);
      assert (x + [c] + y)[1..] == x[1..] + [c] + y;
      assert [x[0]] + x[1..] == x;
    }
  }

  /** A string without c is its own only piece. */
  lemma {:induction false} SplitOnAbsent(s: string, c: char)
    requires c !in s
    ensures SplitOn(s, c) == [s]
    decreases |s|
  {
    if |s| > 0 {
      SplitOnAbsent(s[1..], c);
      assert [s[0]] + s[1..] == s;
    }
  }

  /**
   * A reversed range such as "5-3" is well formed, selects nothing, and the
   * run then stops with EmptySelection.
   */
  lemma ReversedRangeIsEmptySelection(first: nat, last: nat, totalPages: nat)
    requires first > last
    ensures ParsePageRange(ShowNat(first) + "-" + ShowNat(last), totalPages) == Ok([])
    ensures SelectPages(ShowNat(first) + "-" + ShowNat(last), totalPages) == Err(EmptySelection)
  {
    var text := ShowNat(first) + "-" + ShowNat(last);
    SpanTextIsWord(first, last);
    TokensOfWord(text);
    ParseTokenShow(first, last);
    var r := SelectTokens([text], totalPages);
    assert r.Ok?;
    forall i
      ensures i in r.value <==> i in []
    {
      assert !TokenNames(text, i + 1);
    }
    SameMembersSameEmptiness(r.value, []);
  }

  /** "first-last" written with decimal numbers is a single token. */
  lemma SpanTextIsWord(first: nat, last: nat)
    ensures IsWord(ShowNat(first) + "-" + ShowNat(last))
    ensures !IsBlank(ShowNat(first) + "-" + ShowNat(last))
  {
    var a, b := ShowNat(first), ShowNat(last);
    DigitsAreWord(a);
    DigitsAreWord(b);
    assert IsWord("-");
    WordConcat(a, "-");
    WordConcat(a + "-", b);
    assert (a + "-" + b)[0] == a[0];
  }

  /** A non-empty run of digits is one token. */
  lemma DigitsAreWord(s: string)
    requires |s| > 0 && forall i :: 0 <= i < |s| ==> IsDigit(s[i])
    ensures IsWord(s)
  {
    forall i | 0 <= i < |s|
      ensures !IsSeparator(s[i])
    {
      assert IsDigit(s[i]);
    }
  }

  /** A page-range field whose only span runs backwards. */
  const ReversedField := "5-3"

  /** Instance: the field "5-3" stops the run with EmptySelection. */
  lemma ReversedRangeExample(totalPages: nat)
    ensures SelectPages(ReversedField, totalPages) == Err(EmptySelection)
  {
    ReversedRangeIsEmptySelection(5, 3, totalPages);
    ReversedFieldSpells();
  }

  lemma ReversedFieldSpells()
    ensures ShowNat(5) + "-" + ShowNat(3) == ReversedField
  {
    assert ShowNat(5) == "5" && ShowNat(3) == "3";
  }

  /** The example in the parser's docstring. */
  const DocstringField := "1-5, 8, 10-12"

  /** The docstring's example splits into its three tokens. */
  lemma ExampleTokens()
    ensures !IsBlank(DocstringField)
    ensures Tokens(DocstringField) == ["1-5", "8", "10-12"]
  {
    var ts := ["1-5", "8", "10-12"];
    var seps := [", ", ", ", ""];
    assert !IsSpace(DocstringField[0]);
    assert Layout(ts, seps) == DocstringField;
    assert [] + DocstringField == DocstringField;
    assert IsWord(ts[0]) && IsWord(ts[1]) && IsWord(ts[2]);
    TokensOfLayout([], ts, seps);
  }
}

=== FILE: pipeline.dfy ===
/**
 * The page-ordering part of PdfProcessor.create_booklet (main.py:52-76):
 * select the pages, split them into sub-booklets, and for each sub-booklet
 * reorder its pages, pair them into output sides and name its file. The
 * PDF reading, rendering and saving around these steps are not modelled.
 */
module Pipeline {
  import opened Outcomes
  import opened PageRange
  import opened Seqs
  import opened Chunking
  import opened Imposition
  import opened Sheets
  import opened OutputNames
  import opened Integers

  /** The options the page-ordering steps read. */
  datatype Options = Options(
    pageRange: string,
    direction: string,
    splitBooklet: bool,
    sheetsPerBooklet: int,
    outputPath: string)

  /** One output file: where it is written and the sides drawn into it, in order. */
  datatype Booklet = Booklet(path: string, sides: seq<Side>)

  /** The booklet for chunk i of n: its file name and its paired, reordered pages (main.py:64-76). */
  function BookletFor(chunk: seq<int>, i: nat, n: nat, opts: Options): Booklet {
    Booklet(OutputName(opts.outputPath, i, n), PairSides(Reorder(chunk, DirectionOf(opts.direction))))
  }

  function BookletsFor(chunks: seq<seq<int>>, opts: Options): (bs: seq<Booklet>)
    ensures |bs| == |chunks|
    ensures forall i :: 0 <= i < |chunks| ==> bs[i] == BookletFor(chunks[i], i, |chunks|, opts)
  {
    seq(|chunks|, i requires 0 <= i < |chunks| => BookletFor(chunks[i], i, |chunks|, opts))
  }

  /**
   * The booklets a run produces from a document of totalPages pages, with
   * the sheet count checked: the range is parsed, an empty selection is an
   * error, the selection is split, and every chunk becomes one booklet.
   */
  function PlanBooklets(opts: Options, totalPages: nat): (r: Result<seq<Booklet>>)
    ensures r.Err? <==> SelectPages(opts.pageRange, totalPages).Err? || (opts.splitBooklet && opts.sheetsPerBooklet < 1)
    ensures SelectPages(opts.pageRange, totalPages).Err? ==> r.Err? && r.error == SelectPages(opts.pageRange, totalPages).error
    ensures r.Ok? && !opts.splitBooklet ==> |r.value| == 1 && r.value[0].path == opts.outputPath
  {
    var pages :- SelectPages(opts.pageRange, totalPages);
    var chunks :- SplitIntoBookletsChecked(pages, opts.splitBooklet, opts.sheetsPerBooklet);
    Ok(BookletsFor(chunks, opts))
  }

  /**
   * Every booklet of a run is imposed in the requested reading direction:
   * reading page i of chunk b, once padded, lands on the side and half of
   * booklet b where folding the stacked sheets in that direction needs it.
   */
  lemma PlanBookletsFollowDirection(opts: Options, totalPages: nat, b: nat, i: nat)
    ensures PlanBooklets(opts, totalPages).Ok? && b < |PlanBooklets(opts, totalPages).value| ==>
      var chunks := SplitIntoBookletsChecked(SelectPages(opts.pageRange, totalPages).value, opts.splitBooklet, opts.sheetsPerBooklet).value;
      b < |chunks| &&
      var p := Pad(chunks[b]);
      var sides := PlanBooklets(opts, totalPages).value[b].sides;
      i < |p| ==>
        var pos := ReadingPosition(i, |p|, DirectionOf(opts.direction));
        SideIndex(pos) < |sides| && (if pos.half == Left then sides[SideIndex(pos)].left else sides[SideIndex(pos)].right) == p[i]
  {
    var r := PlanBooklets(opts, totalPages);
    if r.Ok? && b < |r.value| {
      var chunks := SplitIntoBookletsChecked(SelectPages(opts.pageRange, totalPages).value, opts.splitBooklet, opts.sheetsPerBooklet).value;
      assert r.value == BookletsFor(chunks, opts);
      var p := Pad(chunks[b]);
      if i < |p| {
        SidesPlaceReadingOrder(p, DirectionOf(opts.direction), i);
      }
    }
  }

  /** The same run with the splitter as written, which accepts a negative sheet count. */
  function PlanBookletsAsWritten(opts: Options, totalPages: nat): (r: Result<seq<Booklet>>)
    ensures SelectPages(opts.pageRange, totalPages).Err? ==> r == Err(SelectPages(opts.pageRange, totalPages).error)
    ensures !(opts.splitBooklet && opts.sheetsPerBooklet < 1) ==> r == PlanBooklets(opts, totalPages)
    ensures SelectPages(opts.pageRange, totalPages).Ok? && opts.splitBooklet && opts.sheetsPerBooklet == 0 ==> r == Err(ZeroChunkSize)
  {
    var pages :- SelectPages(opts.pageRange, totalPages);
    var chunks :- SplitIntoBooklets(pages, opts.splitBooklet, opts.sheetsPerBooklet);
    Ok(BookletsFor(chunks, opts))
  }

  /**
   * With a negative sheet count the as-written run succeeds with no booklet
   * at all, although pages were selected: it reports success and writes nothing.
   */
  lemma AsWrittenNegativeSheetsWritesNothing(opts: Options, totalPages: nat)
    ensures SelectPages(opts.pageRange, totalPages).Ok? && opts.splitBooklet && opts.sheetsPerBooklet < 0 ==>
      PlanBookletsAsWritten(opts, totalPages) == Ok([])
  {
  }

  /** A run that succeeds writes at least one booklet, and every booklet has at least one side. */
  lemma PlanWritesSomething(opts: Options, totalPages: nat)
    ensures PlanBooklets(opts, totalPages).Ok? ==> |PlanBooklets(opts, totalPages).value| > 0
    ensures PlanBooklets(opts, totalPages).Ok? ==>
      forall i :: 0 <= i < |PlanBooklets(opts, totalPages).value| ==> |PlanBooklets(opts, totalPages).value[i].sides| > 0
  {
    if PlanBooklets(opts, totalPages).Err? {
      return;
    }
    var pages := SelectPages(opts.pageRange, totalPages).value;
    var chunks := SplitIntoBookletsChecked(pages, opts.splitBooklet, opts.sheetsPerBooklet).value;
    var bs := PlanBooklets(opts, totalPages).value;
    assert bs == BookletsFor(chunks, opts);
    forall i | 0 <= i < |bs|
      ensures |bs[i].sides| > 0
    {
      assert |chunks[i]| > 0;
    }
  }

  /** With several booklets, no two are written to the same file. */
  lemma PlanPathsDistinct(opts: Options, totalPages: nat, i: nat, j: nat)
    requires i != j
    ensures PlanBooklets(opts, totalPages).Ok? && i < |PlanBooklets(opts, totalPages).value| && j < |PlanBooklets(opts, totalPages).value| ==>
      PlanBooklets(opts, totalPages).value[i].path != PlanBooklets(opts, totalPages).value[j].path
  {
    if PlanBooklets(opts, totalPages).Err? || i >= |PlanBooklets(opts, totalPages).value| || j >= |PlanBooklets(opts, totalPages).value| {
      return;
    }
    var n := |PlanBooklets(opts, totalPages).value|;
    OutputNamesDistinct(opts.outputPath, i, j, n);
  }

  /**
   * When a run writes several booklets, booklet b is saved under the output
   * path with "_part_" and b + 1 put before its extension.
   */
  lemma PlanBookletPaths(opts: Options, totalPages: nat, b: nat)
    ensures PlanBooklets(opts, totalPages).Ok? && 1 < |PlanBooklets(opts, totalPages).value| && b < |PlanBooklets(opts, totalPages).value| ==>
      PlanBooklets(opts, totalPages).value[b].path
        == SplitExt(opts.outputPath).0 + "_part_" + ShowNat(b + 1) + SplitExt(opts.outputPath).1
  {
    var r := PlanBooklets(opts, totalPages);
    if r.Ok? && 1 < |r.value| && b < |r.value| {
      var chunks := SplitIntoBookletsChecked(SelectPages(opts.pageRange, totalPages).value, opts.splitBooklet, opts.sheetsPerBooklet).value;
      assert r.value == BookletsFor(chunks, opts);
      OutputNameShape(opts.outputPath, b, |chunks|);
    }
  }

  /** A booklet has one output side per two entries of its padded chunk: two per physical sheet. */
  lemma PlanBookletSides(opts: Options, totalPages: nat, b: nat)
    ensures PlanBooklets(opts, totalPages).Ok? && b < |PlanBooklets(opts, totalPages).value| ==>
      var chunks := SplitIntoBookletsChecked(SelectPages(opts.pageRange, totalPages).value, opts.splitBooklet, opts.sheetsPerBooklet).value;
      b < |chunks| && 2 * |PlanBooklets(opts, totalPages).value[b].sides| == |chunks[b]| + PaddingCount(|chunks[b]|)
  {
    var r := PlanBooklets(opts, totalPages);
    if r.Ok? && b < |r.value| {
      var chunks := SplitIntoBookletsChecked(SelectPages(opts.pageRange, totalPages).value, opts.splitBooklet, opts.sheetsPerBooklet).value;
      assert r.value == BookletsFor(chunks, opts);
      SidesCount(chunks[b], DirectionOf(opts.direction));
    }
  }

  /** The sides of a reordered chunk: half its padded length. */
  lemma SidesCount(chunk: seq<int>, dir: Direction)
    ensures 2 * |PairSides(Reorder(chunk, dir))| == |chunk| + PaddingCount(|chunk|)
  {
    HalfOfPadded(|Reorder(chunk, dir)|, (|chunk| + PaddingCount(|chunk|)) / 4);
  }

  lemma HalfOfPadded(n: nat, m: nat)
    requires n == 4 * m
    ensures 2 * ((n + 1) / 2) == n
  {
    assert (n + 1) / 2 == 2 * m;
  }

  /** Every page drawn by a list of booklets, booklet by booklet. */
  function DrawnAll(bs: seq<Booklet>): (drawn: seq<int>)
    ensures Blank !in drawn
  {
    if |bs| == 0 then [] else DrawnPages(bs[0].sides) + DrawnAll(bs[1..])
  }

  /** Booklets built from chunks draw each page as often as the chunks list it. */
  lemma {:induction false} DrawnAllCounts(bs: seq<Booklet>, chunks: seq<seq<int>>, dir: Direction, x: int)
    requires x != Blank && |bs| == |chunks|
    requires forall i :: 0 <= i < |bs| ==> bs[i].sides == PairSides(Reorder(chunks[i], dir))
    ensures multiset(DrawnAll(bs))[x] == multiset(Flatten(chunks))[x]
    decreases |bs|
  {
    if |bs| > 0 {
      DrawnAllCounts(bs[1..], chunks[1..], dir, x);
      BookletDrawsChunk(chunks[0], dir, x);
      assert Flatten(chunks) == chunks[0] + Flatten(chunks[1..]);
    }
  }

  /** A strictly ascending list holds each value at most once. */
  lemma {:induction false} AscendingCount(xs: seq<int>, x: int)
    requires StrictlyAscending(xs)
    ensures multiset(xs)[x] == if x in xs then 1 else 0
    decreases |xs|
  {
    if |xs| > 0 {
      AscendingCount(xs[1..], x);
      assert xs == [xs[0]] + xs[1..];
      if x == xs[0] {
        assert x !in xs[1..] by {
          forall k | 0 <= k < |xs[1..]|
            ensures xs[1..][k] != x
          {
            assert xs[1..][k] == xs[k + 1];
          }
        }
      }
    }
  }

  /**
   * The central promise of the run: across all booklets, every selected
   * page is drawn exactly once and nothing else is drawn (blanks draw nothing).
   */
  lemma EverySelectedPageDrawnOnce(opts: Options, totalPages: nat, x: int)
    ensures PlanBooklets(opts, totalPages).Ok? ==>
      var pages := SelectPages(opts.pageRange, totalPages).value;
      multiset(DrawnAll(PlanBooklets(opts, totalPages).value))[x] == if x in pages then 1 else 0
  {
    if PlanBooklets(opts, totalPages).Err? {
      return;
    }
    var pages := SelectPages(opts.pageRange, totalPages).value;
    var chunks := SplitIntoBookletsChecked(pages, opts.splitBooklet, opts.sheetsPerBooklet).value;
    var bs := PlanBooklets(opts, totalPages).value;
    assert bs == BookletsFor(chunks, opts);
    ChunkBookletsDrawOnce(pages, totalPages, chunks, bs, DirectionOf(opts.direction), x);
  }

  /** Booklets built from a partition of an ascending selection draw each selected page once. */
  lemma ChunkBookletsDrawOnce(pages: seq<int>, totalPages: nat, chunks: seq<seq<int>>, bs: seq<Booklet>, dir: Direction, x: int)
    requires StrictlyAscending(pages) && WithinPages(pages, totalPages) && Flatten(chunks) == pages
    requires |bs| == |chunks| && forall i :: 0 <= i < |bs| ==> bs[i].sides == PairSides(Reorder(chunks[i], dir))
    ensures multiset(DrawnAll(bs))[x] == if x in pages then 1 else 0
  {
    AscendingCount(pages, x);
    if x != Blank {
      DrawnAllCounts(bs, chunks, dir, x);
    } else {
      assert x !in pages;
    }
  }
}

=== FILE: seqs.dfy ===
/** Sequence helpers shared by the tokeniser and the booklet splitter. */
module Seqs {

  /** The concatenation of a sequence of sequences (`"".join(parts)` on strings). */
  function Flatten<T>(css: seq<seq<T>>): seq<T> {
    if |css| == 0 then [] else css[0] + Flatten(css[1..])
  }
}

=== FILE: sheets.dfy ===
/**
 * Side pairing: the loop of PdfProcessor._create_final_pdf (main.py:208-234)
 * that consumes the reordered list two entries at a time, one output side
 * (one canvas page) per pair, the first entry on the left half and the
 * second on the right half. A blank entry draws nothing.
 */
module Sheets {
  import opened Imposition

  /** One output side: the entry drawn on its left half and the one on its right half. */
  datatype Side = Side(left: int, right: int)

  /**
   * `for i in range(0, len(ordered), 2)`: side j takes entries 2j and
   * 2j + 1, and a missing right entry (odd length) is a blank.
   */
  function PairSides(ordered: seq<int>): (sides: seq<Side>)
    ensures |sides| == (|ordered| + 1) / 2
    decreases |ordered|
  {
    if |ordered| == 0 then []
    else if |ordered| == 1 then [Side(ordered[0], Blank)]
    else [Side(ordered[0], ordered[1])] + PairSides(ordered[2..])
  }

  /** Side j holds entries 2j and 2j + 1, the right one blank past the end. */
  lemma {:induction false} PairSidesAt(ordered: seq<int>, j: nat)
    requires j < (|ordered| + 1) / 2
    ensures PairSides(ordered)[j].left == ordered[2 * j]
    ensures PairSides(ordered)[j].right == if 2 * j + 1 < |ordered| then ordered[2 * j + 1] else Blank
    decreases j
  {
    if j > 0 {
      PairSidesAt(ordered[2..], j - 1);
    }
  }

  /** Reading the sides back half by half. */
  function Unpair(sides: seq<Side>): (entries: seq<int>)
    ensures |entries| == 2 * |sides|
  {
    if |sides| == 0 then [] else [sides[0].left, sides[0].right] + Unpair(sides[1..])
  }

  /** Pairing loses nothing: reading the sides back gives the list, with one blank appended if its length is odd. */
  lemma {:induction false} UnpairPairSides(ordered: seq<int>)
    ensures Unpair(PairSides(ordered)) == if |ordered| % 2 == 0 then ordered else ordered + [Blank]
    decreases |ordered|
  {
    if |ordered| >= 2 {
      UnpairPairSides(ordered[2..]);
      assert ordered == [ordered[0], ordered[1]] + ordered[2..];
    }
  }

  /** The entries drawn on one side, left half first; blanks are skipped (main.py:213, 224). */
  function SideDraws(side: Side): (drawn: seq<int>)
    ensures Blank !in drawn
    ensures |drawn| <= 2
  {
    (if side.left != Blank then [side.left] else []) + (if side.right != Blank then [side.right] else [])
  }

  /** Every page drawn on the sides, in output order. */
  function DrawnPages(sides: seq<Side>): (drawn: seq<int>)
    ensures Blank !in drawn
  {
    if |sides| == 0 then [] else SideDraws(sides[0]) + DrawnPages(sides[1..])
  }

  /** The list without its blanks. */
  function WithoutBlanks(s: seq<int>): (r: seq<int>)
    ensures Blank !in r
    ensures forall x :: x in r <==> x in s && x != Blank
  {
    if |s| == 0 then [] else (if s[0] == Blank then [] else [s[0]]) + WithoutBlanks(s[1..])
  }

  /** The pages drawn are exactly the non-blank entries, in order. */
  lemma {:induction false} DrawnPagesPairSides(ordered: seq<int>)
    ensures DrawnPages(PairSides(ordered)) == WithoutBlanks(ordered)
    decreases |ordered|
  {
    if |ordered| == 1 {
      assert ordered[1..] == [];
    } else if |ordered| >= 2 {
      DrawnPagesPairSides(ordered[2..]);
      assert ordered[1..][1..] == ordered[2..];
    }
  }

  /** Removing blanks keeps every other entry as often as it occurs. */
  lemma {:induction false} WithoutBlanksCounts(s: seq<int>, x: int)
    requires x != Blank
    ensures multiset(WithoutBlanks(s))[x] == multiset(s)[x]
    decreases |s|
  {
    if |s| > 0 {
      WithoutBlanksCounts(s[1..], x);
      assert s == [s[0]] + s[1..];
    }
  }

  /**
   * The sides of a booklet draw every page of its chunk exactly as often as
   * the chunk lists it, and draw no blank.
   */
  lemma BookletDrawsChunk(chunk: seq<int>, dir: Direction, x: int)
    requires x != Blank
    ensures multiset(DrawnPages(PairSides(Reorder(chunk, dir))))[x] == multiset(chunk)[x]
  {
    DrawnPagesPairSides(Reorder(chunk, dir));
    WithoutBlanksCounts(Reorder(chunk, dir), x);
    ReorderCounts(chunk, dir);
  }

  /** The output side of a position: the front face of sheet s is side 2s and its back face side 2s + 1. */
  function SideIndex(pos: Position): nat {
    2 * pos.sheet + (if pos.face == Back then 1 else 0)
  }

  /**
   * The folding argument, on the sides: reading page i of a padded list p
   * is on side SideIndex(ReadingPosition(i)) at the half the position names.
   */
  lemma SidesPlaceReadingOrder(p: seq<int>, dir: Direction, i: nat)
    requires |p| % 4 == 0 && i < |p|
    ensures SideIndex(ReadingPosition(i, |p|, dir)) < |p| / 2
    ensures var pos := ReadingPosition(i, |p|, dir);
      var side := PairSides(SignatureOrder(p, dir))[SideIndex(pos)];
      (if pos.half == Left then side.left else side.right) == p[i]
  {
    var pos := ReadingPosition(i, |p|, dir);
    var j := SideIndex(pos);
    ImpositionPlacesReadingOrder(p, dir, i);
    assert SlotIndex(pos) == 2 * j + (if pos.half == Right then 1 else 0);
    PairSidesAt(SignatureOrder(p, dir), j);
  }
}

=== FILE: text.dfy ===
/**
 * The string handling the page-range parser relies on: Python's
 * str.isspace() / str.strip(), the regular-expression split on runs of
 * commas and white space, str.split on one character and str.join.
 */
module Text {
  import opened Seqs

  /** Python's str.isspace() and the `\s` class of a str pattern: the Unicode white-space code points. */
  predicate IsSpace(c: char) {
    var k := c as int;
    k == 0x20 || 0x09 <= k <= 0x0D || 0x1C <= k <= 0x1F || k == 0x85 || k == 0xA0
    || k == 0x1680 || 0x2000 <= k <= 0x200A || k == 0x2028 || k == 0x2029
    || k == 0x202F || k == 0x205F || k == 0x3000
  }

  /** A character of the class `[,\s]` that separates page-range tokens. */
  predicate IsSeparator(c: char) {
    c == ',' || IsSpace(c)
  }

  /** True when s consists of white space only (the empty string included). */
  predicate IsBlank(s: string) {
    forall i :: 0 <= i < |s| ==> IsSpace(s[i])
  }

  /** A non-empty string without any separator: one page-range token. */
  predicate IsWord(t: string) {
    |t| > 0 && forall i :: 0 <= i < |t| ==> !IsSeparator(t[i])
  }

  /** str.lstrip(): the suffix of s left after removing leading white space. */
  function StripLeft(s: string): (r: string)
    ensures |r| <= |s| && r == s[|s| - |r|..]
    ensures forall i :: 0 <= i < |s| - |r| ==> IsSpace(s[i])
    ensures |r| > 0 ==> !IsSpace(r[0])
  {
    if |s| > 0 && IsSpace(s[0]) then StripLeft(s[1..]) else s
  }

  /** str.rstrip(): the prefix of s left after removing trailing white space. */
  function StripRight(s: string): (r: string)
    ensures |r| <= |s| && r == s[..|r|]
    ensures forall i :: |r| <= i < |s| ==> IsSpace(s[i])
    ensures |r| > 0 ==> !IsSpace(r[|r| - 1])
  {
    if |s| > 0 && IsSpace(s[|s| - 1]) then StripRight(s[..|s| - 1]) else s
  }

  /** str.strip(): s without leading and trailing white space. */
  function Strip(s: string): (r: string)
    ensures |r| == 0 <==> IsBlank(s)
    ensures |r| > 0 ==> !IsSpace(r[0]) && !IsSpace(r[|r| - 1])
    ensures exists a :: OccursAt(r, s, a)
  {
    var l := StripLeft(s);
    var r := StripRight(l);
    StripParts(s, l, r, |s| - |l|);
    StripBlank(s, l, r);
    r
  }

  /** The two halves of Strip leave a slice of s surrounded by white space. */
  lemma StripParts(s: string, l: string, r: string, a: int)
    requires l == StripLeft(s) && r == StripRight(l) && a == |s| - |l|
    ensures OccursAt(r, s, a)
  {
    assert l == s[a..];
    assert r == s[a..a + |r|] by {
      forall k | 0 <= k < |r|
        ensures r[k] == s[a + k]
      {
        assert r[k] == l[k];
      }
    }
    forall i | a + |r| <= i < |s|
      ensures IsSpace(s[i])
    {
      assert s[i] == l[i - a];
    }
  }

  /** Strip leaves nothing exactly when s is all white space. */
  lemma StripBlank(s: string, l: string, r: string)
    requires l == StripLeft(s) && r == StripRight(l)
    ensures |r| == 0 <==> IsBlank(s)
  {
    if |r| == 0 {
      assert |l| == 0;
    } else {
      assert r[0] == l[0];
      assert l[0] == s[|s| - |l|];
    }
  }

  /** r is the slice of s that starts at a, and everything around it is white space. */
  predicate OccursAt(r: string, s: string, a: int) {
    && 0 <= a <= |s| - |r|
    && r == s[a..a + |r|]
    && (forall i :: 0 <= i < a ==> IsSpace(s[i]))
    && (forall i :: a + |r| <= i < |s| ==> IsSpace(s[i]))
  }

  /** Length of the longest prefix of s that holds no separator. */
  function WordLength(s: string): (k: nat)
    ensures k <= |s|
    ensures forall i :: 0 <= i < k ==> !IsSeparator(s[i])
    ensures k < |s| ==> IsSeparator(s[k])
  {
    if |s| == 0 || IsSeparator(s[0]) then 0 else 1 + WordLength(s[1..])
  }

  /**
   * The parts of `re.split(r'[,\s]+', s)` that are not empty, in order:
   * the maximal runs of characters that are neither a comma nor white space.
   * (The empty parts re.split yields at a leading or trailing separator are
   * exactly the ones the caller skips.)
   */
  function Tokens(s: string): (ts: seq<string>)
    ensures forall k :: 0 <= k < |ts| ==> IsWord(ts[k])
    decreases |s|
  {
    if |s| == 0 then []
    else if IsSeparator(s[0]) then Tokens(s[1..])
    else
      var w := WordLength(s);
      [s[..w]] + Tokens(s[w..])
  }

  /** `sep.join(parts)`. */
  function Join(parts: seq<string>, sep: string): string {
    if |parts| == 0 then []
    else if |parts| == 1 then parts[0]
    else parts[0] + sep + Join(parts[1..], sep)
  }

  /** The characters of s that are not separators, in order. */
  function WithoutSeparators(s: string): (r: string)
    ensures forall i :: 0 <= i < |r| ==> !IsSeparator(r[i])
  {
    if |s| == 0 then []
    else (if IsSeparator(s[0]) then [] else [s[0]]) + WithoutSeparators(s[1..])
  }

  /** Number of occurrences of c in s. */
  function Occurrences(s: string, c: char): nat {
    if |s| == 0 then 0 else (if s[0] == c then 1 else 0) + Occurrences(s[1..], c)
  }

  /** `s.split(c)`: the pieces between the occurrences of c, empty pieces included. */
  function SplitOn(s: string, c: char): (parts: seq<string>)
    ensures |parts| == Occurrences(s, c) + 1
    ensures forall k :: 0 <= k < |parts| ==> c !in parts[k]
  {
    if |s| == 0 then [[]]
    else
      var rest := SplitOn(s[1..], c);
      if s[0] == c then [[]] + rest else [[s[0]] + rest[0]] + rest[1..]
  }

  /** Joining the pieces of `s.split(c)` with c gives back s. */
  lemma {:induction false} JoinSplitOn(s: string, c: char)
    ensures Join(SplitOn(s, c), [c]) == s
    decreases |s|
  {
    if |s| > 0 {
      var rest := SplitOn(s[1..], c);
      JoinSplitOn(s[1..], c);
      assert s == [s[0]] + s[1..];
      if s[0] != c && |rest| > 1 {
        assert SplitOn(s, c)[1..] == rest[1..];
      }
    }
  }

  /** A string made only of separators has no token. */
  lemma {:induction false} TokensOfSeparators(s: string)
    requires forall i :: 0 <= i < |s| ==> IsSeparator(s[i])
    ensures Tokens(s) == []
    decreases |s|
  {
    if |s| > 0 {
      TokensOfSeparators(s[1..]);
    }
  }

  /** Separators in front of a text change no token. */
  lemma {:induction false} TokensAfterSeparators(sep: string, rest: string)
    requires forall i :: 0 <= i < |sep| ==> IsSeparator(sep[i])
    ensures Tokens(sep + rest) == Tokens(rest)
    decreases |sep|
  {
    if |sep| > 0 {
      assert (sep + rest)[0] == sep[0];
      assert IsSeparator(sep[0]);
      assert (sep + rest)[1..] == sep[1..] + rest;
      TokensAfterSeparators(sep[1..], rest);
    } else {
      assert sep + rest == rest;
    }
  }

  /** A word followed by a separator and more text is the first token of the whole. */
  lemma {:induction false} TokensAfterWord(t: string, sep: string, rest: string)
    requires IsWord(t) && |sep| > 0
    requires forall i :: 0 <= i < |sep| ==> IsSeparator(sep[i])
    ensures Tokens(t + sep + rest) == [t] + Tokens(rest)
  {
    var s := t + sep + rest;
    assert t + sep + rest == t + (sep + rest);
    WordLengthOfWord(t, sep + rest);
    assert s[..|t|] == t;
    assert s[|t|..] == sep + rest;
    TokensAfterSeparators(sep, rest);
  }

  /** The longest separator-free prefix of a word followed by a separator is the word. */
  lemma {:induction false} WordLengthOfWord(t: string, rest: string)
    requires IsWord(t)
    requires |rest| == 0 || IsSeparator(rest[0])
    ensures WordLength(t + rest) == |t|
    decreases |t|
  {
    if |t| > 1 {
      assert (t + rest)[1..] == t[1..] + rest;
      WordLengthOfWord(t[1..], rest);
    } else {
      assert (t + rest)[1..] == rest;
    }
  }

  /** A word on its own is its only token. */
  lemma TokensOfWord(t: string)
    requires IsWord(t)
    ensures Tokens(t) == [t]
  {
    WordLengthOfWord(t, []);
    assert t + [] == t;
    assert t[|t|..] == [];
  }

  /** Every character of s is a separator (an empty s included). */
  predicate SeparatorRun(s: string) {
    forall i :: 0 <= i < |s| ==> IsSeparator(s[i])
  }

  /**
   * Words each followed by its own run of separators:
   * `ts[0] + seps[0] + ts[1] + seps[1] + ...`.
   */
  function Layout(ts: seq<string>, seps: seq<string>): (s: string)
    requires |seps| == |ts|
    ensures |s| == |Flatten(ts)| + |Flatten(seps)|
  {
    if |ts| == 0 then [] else ts[0] + seps[0] + Layout(ts[1..], seps[1..])
  }

  /**
   * Tokenising words laid out with an optional leading run of separators, a
   * non-empty run between consecutive words and an optional trailing run
   * gives back exactly the words: splitting never merges nor cuts a token.
   */
  lemma TokensOfLayout(lead: string, ts: seq<string>, seps: seq<string>)
    requires |seps| == |ts| && SeparatorRun(lead)
    requires forall k :: 0 <= k < |ts| ==> IsWord(ts[k]) && SeparatorRun(seps[k])
    requires forall k :: 0 <= k < |ts| - 1 ==> |seps[k]| > 0
    ensures Tokens(lead + Layout(ts, seps)) == ts
  {
    TokensAfterSeparators(lead, Layout(ts, seps));
    TokensOfWords(ts, seps);
  }

  lemma {:induction false} TokensOfWords(ts: seq<string>, seps: seq<string>)
    requires |seps| == |ts|
    requires forall k :: 0 <= k < |ts| ==> IsWord(ts[k]) && SeparatorRun(seps[k])
    requires forall k :: 0 <= k < |ts| - 1 ==> |seps[k]| > 0
    ensures Tokens(Layout(ts, seps)) == ts
    decreases |ts|
  {
    if |ts| > 0 {
      var rest := Layout(ts[1..], seps[1..]);
      TokensOfWords(ts[1..], seps[1..]);
      if |seps[0]| > 0 {
        TokensAfterWord(ts[0], seps[0], rest);
      } else {
        assert rest == [];
        assert ts[0] + seps[0] + rest == ts[0];
        TokensOfWord(ts[0]);
      }
      assert ts == [ts[0]] + ts[1..];
    }
  }

  /** Tokenising loses no character other than separators. */
  lemma {:induction false} FlattenTokens(s: string)
    ensures Flatten(Tokens(s)) == WithoutSeparators(s)
    decreases |s|
  {
    if |s| > 0 {
      if IsSeparator(s[0]) {
        FlattenTokens(s[1..]);
      } else {
        var w := WordLength(s);
        FlattenTokens(s[w..]);
        WithoutSeparatorsOfWord(s, w);
        assert [s[..w]] + Tokens(s[w..]) == Tokens(s);
      }
    }
  }

  /** Removing separators from a string that begins with a separator-free prefix keeps that prefix. */
  lemma {:induction false} WithoutSeparatorsOfWord(s: string, w: nat)
    requires w <= |s|
    requires forall i :: 0 <= i < w ==> !IsSeparator(s[i])
    ensures WithoutSeparators(s) == s[..w] + WithoutSeparators(s[w..])
    decreases w
  {
    if w > 0 {
      WithoutSeparatorsOfWord(s[1..], w - 1);
      assert s[1..][w - 1..] == s[w..];
      assert s[..w] == [s[0]] + s[1..][..w - 1];
    }
  }

  /** Leading white space changes no token. */
  lemma {:induction false} TokensStripLeft(s: string)
    ensures Tokens(StripLeft(s)) == Tokens(s)
    decreases |s|
  {
    if |s| > 0 && IsSpace(s[0]) {
      TokensStripLeft(s[1..]);
    }
  }

  /** Trailing separators change no token. */
  lemma {:induction false} TokensDropTrailing(s: string, n: nat)
    requires n <= |s|
    requires forall i :: n <= i < |s| ==> IsSeparator(s[i])
    ensures Tokens(s[..n]) == Tokens(s)
    decreases |s|
  {
    if n == 0 {
      TokensOfSeparators(s);
    } else if IsSeparator(s[0]) {
      TokensDropTrailing(s[1..], n - 1);
      assert s[1..][..n - 1] == s[..n][1..];
    } else {
      var w := WordLength(s);
      var wn := WordLength(s[..n]);
      WordLengthPrefix(s, n);
      assert wn == w && w <= n;
      TokensDropTrailing(s[w..], n - w);
      assert s[..n][..w] == s[..w];
      assert s[w..][..n - w] == s[..n][w..];
    }
  }

  /** Cutting s before a trailing run of separators keeps its first word. */
  lemma {:induction false} WordLengthPrefix(s: string, n: nat)
    requires 0 < n <= |s|
    requires forall i :: n <= i < |s| ==> IsSeparator(s[i])
    ensures WordLength(s[..n]) == WordLength(s) <= n
    decreases n
  {
    if !IsSeparator(s[0]) && n > 1 {
      WordLengthPrefix(s[1..], n - 1);
      assert s[..n][1..] == s[1..][..n - 1];
    } else if !IsSeparator(s[0]) {
      assert s[..n][1..] == [];
      assert |s| == 1 || IsSeparator(s[1]);
      if |s| > 1 {
        assert s[1..][0] == s[1];
      }
    }
  }

  /** str.strip() before splitting changes no token. */
  lemma TokensStrip(s: string)
    ensures Tokens(Strip(s)) == Tokens(s)
  {
    var l := StripLeft(s);
    TokensStripLeft(s);
    var r := StripRight(l);
    TokensDropTrailing(l, |r|);
  }

  /** Two words written one after the other form one word. */
  lemma WordConcat(a: string, b: string)
    requires IsWord(a) && IsWord(b)
    ensures IsWord(a + b)
  {
    forall i | 0 <= i < |a + b|
      ensures !IsSeparator((a + b)[i])
    {
      if i < |a| {
        assert (a + b)[i] == a[i];
      } else {
        assert (a + b)[i] == b[i - |a|];
      }
    }
  }
}
